=== FILE: README.md ===
# Ticket-dispatch core, modelled in Dafny

This project models the in-memory dispatch core of a single-facility queueing
application (the `Core/` package). Customers register. A customer requests a
service and receives a ticket. The ticket's id goes into that service's queue.
A clerk calls the next ticket, then finishes it or cancels it. The parts are:

- **Ticket** (`Core/ticket.py`): a status state machine with WAITING, CALLED,
  DONE and CANCELED. It carries an append-only audit log and the lines its
  notification capability prints. Every transition is a pure function that
  returns the updated ticket or the `ValueError` the source raises.
- **QueueSystem** (`Core/queue_system.py`): maps of customers, services and
  tickets, one queue (`seq<nat>`) of ticket ids per service, and the ticket
  counter, which starts at 1000. Every mutating operation returns a `Step`:
  the system after the call, plus the value returned or the exception raised.
  In several places the source mutates state before it raises. The `Step`
  keeps those mutations:
  - `call_next_ticket` pops the head of the queue before the ticket can refuse
    `mark_called`.
  - `finish_ticket` and `cancel_ticket` change the ticket before they look up
    its customer.
- **Customer** and **Service** (`Core/person.py`, `Core/service.py`): immutable
  records with their update and display functions.
- **Audit log** (`AuditMixin` in `Core/mixins.py`): an append-only
  `seq<string>` of `"[" + ts + "] " + message` entries.

Ticket ids are natural numbers. The source's `"T1001"` strings are the
injective rendering `Render.TicketName`. Exceptions are
`Error = KeyError(message) | ValueError(message)`, carrying the source's own
messages.

The module `Invariants` defines `Valid`, the invariant of the system. It is
proved to hold initially and to be preserved by every operation. It says:

- every queue is in issue order, so it is FIFO with no repeats;
- every WAITING ticket is in its service's queue;
- a customer's active reference names exactly that customer's one WAITING
  ticket;
- every ticket has priority 0;
- a queued ticket is WAITING or DONE.

Queues can hold DONE tickets: `finish_ticket` does not dequeue.
`Properties.FinishedTicketStaysQueued` and `Properties.FinishedHeadScenario`
show this behaviour rather than hiding it.

`add_customer` stores whatever customer object it is given. If that object
already carries an active reference, the invariant can break. So
`AddCustomerKeepsValid` assumes a customer that is not waiting, which is what
`Customer.__init__` produces.

The code does less than its priority fields suggest, and the model follows the
code:

- Queues are plain FIFO. `create_ticket` only appends. There is no
  priority-band insertion, no reordering when a priority changes, and no
  system-level priority setter.
- `create_ticket` takes no priority, so every ticket it issues has priority 0.
  The customer's priority flag is never consulted.
- `finish_ticket` leaves the id in its queue.
- There is no ticket listing by status.

## Model

| member | source | states |
|---|---|---|
| Render.ParseNatToString | Core/queue_system.py:54-55 | reading back the decimal digits of a counter value gives the counter value |
| Render.NatToString | Core/queue_system.py:55 | Python `str()` of a natural number is a non-empty run of decimal digits with no leading zero, and `Render.ParseNatToString` reads it back |
| Render.NatToStringInjective | Core/queue_system.py:54-55 | two counter values render to the same digits only if they are equal |
| Render.TicketNameInjective | Core/queue_system.py:55 | the `"T"`-prefixed ticket names of two counter values coincide exactly when the values do, so numeric ids lose nothing |
| Render.TicketName | Core/queue_system.py:55 | a ticket name is `T` followed by at least one decimal digit, and those digits read back to the counter value |
| Render.IntToStringInjective | Core/service.py:17-18 | Python `str()` of an integer (sign included) determines the integer |
| Render.IntToString | Core/service.py:18 | Python `str()` of an integer starts with `-` exactly when the integer is negative; the digits (after the sign, if any) read back to the integer's absolute value |
| Lists.IndexOf | Core/queue_system.py:110 | the position found holds the id and no earlier position does, which is the first occurrence `list.remove` deletes |
| Lists.RemoveFirst | Core/queue_system.py:108-110 | `list.remove` deletes the first occurrence of the id: everything before it is kept as is, everything after it moves up by one in the same order, so the queue is one shorter and holds exactly one copy fewer |
| Lists.RemoveFirstKeepsIncreasing | Core/queue_system.py:108-110 | removing an id from a queue in issue order leaves it in issue order |
| Lists.RemoveFirstMembers | Core/queue_system.py:108-110 | in a queue in issue order, removal drops that id and keeps every other id |
| Mixins.NewLog | Core/mixins.py:9-10 | a fresh audit log is empty |
| Mixins.Log | Core/mixins.py:12-14 | logging adds exactly one entry, keeps every earlier entry, and the new entry is the bracketed timestamp followed by the message |
| Mixins.Entry | Core/mixins.py:13-14 | an entry is `[`, the timestamp itself, `] `, then the message, with nothing else in it |
| Mixins.EntryRoundTrip | Core/mixins.py:13-14 | when the timestamp holds no `]`, the message can be recovered from its entry |
| Mixins.MessageOfSkips | Core/mixins.py:13-14 | message recovery skips a timestamp that holds no `]` |
| Mixins.GetAuditLog | Core/mixins.py:16-17 | `get_audit_log` returns a sequence equal to the log, entry by entry |
| Mixins.LogIsAppendOnly | Core/mixins.py:12-14 | after any run of `log` calls, the log has grown by the number of calls and starts with the old log unchanged |
| Mixins.Notify | Core/mixins.py:22-23 | `notify` emits exactly one `NOTIFY: ` line and nothing else |
| Persons.NewCustomer | Core/person.py:21-24 | a new customer keeps its given fields, stores its priority unchecked (default 0), has no active ticket and is not waiting |
| Persons.SetActiveTicket | Core/person.py:25-29 | the reference becomes the argument, the customer is waiting exactly when it is set, and no other field changes |
| Persons.UpdatePhone | Core/person.py:13-14 | only the phone changes |
| Persons.ShortDisplay | Core/person.py:16-17 | the display line is the full name, ` (`, the id, then `)` |
| Persons.ShortDisplayIgnoresMutableFields | Core/person.py:13-26 | neither a phone update nor a reference change alters the display line |
| Persons.SetActiveTicketRoundTrip | Core/person.py:25-29 | clearing the reference makes the customer not waiting, and restoring it gives back the same customer |
| Services.UpdateAvgMinutes | Core/service.py:12-15 | a non-positive value raises and changes nothing; a positive one becomes the average; the id and name never change |
| Services.UpdateAvgMinutesIdempotent | Core/service.py:12-15 | repeating a successful update gives the same service |
| Services.Display | Core/service.py:17-18 | the display line is the name, ` (avg `, `str()` of the average, then ` min)` |
| Services.DisplayDistinguishesAverages | Core/service.py:17-18 | for the same name, two display lines are equal exactly when the averages are equal |
| Services.PositivityIsNotGlobal | Core/service.py:6-10 | the constructor accepts a zero average, which the update would refuse |
| Tickets.AppendLog | Core/queue_system.py:63 | `ticket.log` adds one entry ending in the message and changes no other field |
| Tickets.NewTicket | Core/ticket.py:8-18 | a new ticket is WAITING, has the given priority and ids, and has exactly one log entry, which records its creation |
| Tickets.SetPriority | Core/ticket.py:20-28 | a value outside {0,1} is refused first, then a status other than WAITING; success sets the priority, keeps the status, and logs old and new values once |
| Tickets.MarkCalled | Core/ticket.py:30-35 | succeeds exactly from WAITING, moves to CALLED, logs once and sends exactly one notification naming the ticket |
| Tickets.MarkDone | Core/ticket.py:37-41 | succeeds exactly from WAITING or CALLED, moves to DONE and logs once |
| Tickets.Cancel | Core/ticket.py:43-47 | succeeds exactly from a non-terminal status (CALLED included), moves to CANCELED and logs once |
| Tickets.ApplyFollowsTable | Core/ticket.py:20-47 | every operation succeeds exactly when an independent transition table allows it, lands in the table's status, keeps the ticket's identity, logs once, and never moves the status back |
| Tickets.TerminalIsFinal | Core/ticket.py:24-45 | from DONE or CANCELED, all four operations fail |
| Tickets.RunLogsEachSuccess | Core/ticket.py:20-47 | across any run of operations the log grows by one entry per success and none per failure, earlier entries survive, and the status only moves forward |
| Dispatch.Init | Core/queue_system.py:11-20 | a new system has empty registries and queues, and the counter at 1000 |
| Dispatch.QueueOf | Core/queue_system.py:67 | `queues_by_service.get(service_id, [])`: the service's queue when it has one, and the empty queue for an unknown service |
| Dispatch.AddCustomer | Core/queue_system.py:23-26 | a duplicate id raises and changes nothing; otherwise only the customer registry gains that one entry |
| Dispatch.GetCustomer | Core/queue_system.py:28-31 | returns the registered customer, or raises `Customer not found` |
| Dispatch.AddService | Core/queue_system.py:34-38 | a duplicate id raises and changes nothing; otherwise the service is registered with an empty queue and no other queue changes |
| Dispatch.CreateTicket | Core/queue_system.py:44-64 | unknown customer, unknown service or a waiting customer raises with nothing changed; success bumps the counter by one, stores under the new value exactly the freshly built WAITING priority-0 ticket followed by its `Added to queue` log line, appends its id to that queue only, and points the customer's reference at it |
| Dispatch.PeekNext | Core/queue_system.py:66-70 | returns the ticket at the head of the queue, or `None` for an empty or unknown queue |
| Dispatch.Released | Core/queue_system.py:83-85 | the customer's reference is cleared exactly when it names the ticket, and restoring the old reference gives back the original record, so no other field moves |
| Dispatch.Release | Core/queue_system.py:83-85 | the customer record becomes `Released` of itself: its reference is cleared exactly when it named the ticket; nothing else changes |
| Dispatch.CallNext | Core/queue_system.py:72-88 | an empty or unknown queue gives `None` with no change, and only it does; otherwise the head is removed and the rest keep their order, even when a non-WAITING head makes the call raise; a WAITING head whose customer is registered is always called, and the stored and returned ticket is exactly `mark_called`'s result followed by the `Customer released from queue on CALL` line; the customer record changes only by the conditional release; an unstored head id raises `KeyError` with its name, and a WAITING head whose customer is unregistered raises `KeyError` with the customer id after the ticket is already stored as CALLED |
| Dispatch.FinishTicket | Core/queue_system.py:91-99 | an unknown id raises; the ticket's own rule decides; success stores exactly `mark_done`'s result, changes the customer record only by the conditional release, and leaves every queue untouched |
| Dispatch.Dequeue | Core/queue_system.py:108-110 | the id leaves its service's queue if present; other queues are untouched |
| Dispatch.CancelTicket | Core/queue_system.py:101-114 | an unknown id raises; a DONE or CANCELED ticket raises with no change; otherwise the stored ticket is exactly `cancel`'s result, its id is removed from its queue if present, and the customer record changes only by the conditional release |
| Dispatch.QueueLength | Core/queue_system.py:116-117 | the length of the service's queue, and 0 for an unknown service |
| Dispatch.EstimateWaitMinutes | Core/queue_system.py:119-122 | an unknown service raises; otherwise the queue length times the service's average |
| Invariants.InitValid | Core/queue_system.py:11-20 | the empty system satisfies the invariant |
| Invariants.AddCustomerKeepsValid | Core/queue_system.py:23-26 | registering a customer that is not yet waiting keeps the invariant |
| Invariants.AddServiceKeepsValid | Core/queue_system.py:34-38 | registering a service keeps the invariant |
| Invariants.NextIdIsFresh | Core/queue_system.py:54-55 | the next counter value is neither an existing ticket nor queued anywhere |
| Invariants.CreateTicketKeepsIssued | Core/queue_system.py:54-58 | after `create_ticket` the registries stay keyed by their ids and every ticket was issued by the counter with priority 0 |
| Invariants.AppendKeepsIncreasing | Core/queue_system.py:60 | appending an id above every queued id keeps the queue in issue order |
| Invariants.CreateTicketKeepsQueuedStatuses | Core/queue_system.py:57-60 | after `create_ticket` every queued ticket is still WAITING or DONE |
| Invariants.CreateTicketKeepsQueuesOrdered | Core/queue_system.py:54-60 | appending the fresh id keeps every queue in issue order |
| Invariants.AppendedQueuesOrdered | Core/queue_system.py:57-60 | storing a ticket under the next id and appending that id to its own service's queue keeps every queue in issue order and naming only its own service's tickets |
| Invariants.CreateTicketKeepsWaitingQueued | Core/queue_system.py:57-60 | the new WAITING ticket is queued, and so is every older one |
| Invariants.CreateTicketKeepsActiveRefs | Core/queue_system.py:50-61 | the customer's reference names its one WAITING ticket after the call |
| Invariants.CreateTicketKeepsValid | Core/queue_system.py:44-64 | `create_ticket` keeps the invariant, whether it succeeds or raises |
| Invariants.PopKeepsOrder | Core/queue_system.py:77 | popping the head keeps issue order and every id but the head |
| Invariants.CallNextShape | Core/queue_system.py:77-88 | when the head is WAITING, its customer's reference named it and is cleared, and the head leaves the queue |
| Invariants.PoppedStaleHeadValid | Core/queue_system.py:77-79 | losing a non-WAITING head keeps the invariant |
| Invariants.PoppedStaleHeadWaiting | Core/queue_system.py:77-79 | popping a non-WAITING head leaves every WAITING ticket queued |
| Invariants.PoppedStaleHeadStatuses | Core/queue_system.py:77 | popping a head leaves only entries that were queued before, so their statuses stay WAITING or DONE |
| Invariants.CalledHeadQueuesValid | Core/queue_system.py:77-79 | calling the head keeps the queue parts of the invariant |
| Invariants.CalledHeadStatuses | Core/queue_system.py:77-88 | once the called head is popped no queue names it, so every queued ticket is still WAITING or DONE |
| Invariants.LeftWaitingRefsValid | Core/queue_system.py:97-99 | after a ticket leaves WAITING and its customer is released, references stay exact |
| Invariants.LeftWaitingQueuesValid | Core/queue_system.py:106-110 | after a ticket becomes DONE (kept queued) or CANCELED (dequeued), the queue parts of the invariant hold |
| Invariants.LeftWaitingKeepsValid | Core/queue_system.py:91-114 | the whole invariant holds after a ticket becomes DONE (kept queued) or CANCELED (dequeued) and its customer is released |
| Invariants.CallNextKeepsValid | Core/queue_system.py:72-88 | `call_next_ticket` keeps the invariant, whether it succeeds or raises |
| Invariants.CallNextRefusedKeepsValid | Core/queue_system.py:77-79 | `call_next_ticket` on a non-WAITING head keeps the invariant |
| Invariants.CallNextCalledKeepsValid | Core/queue_system.py:77-88 | `call_next_ticket` on a WAITING head keeps the invariant |
| Invariants.DequeueShrinks | Core/queue_system.py:108-110 | after a possible removal every queue is in issue order, holds nothing new, keeps every other id, and no longer holds the removed one |
| Invariants.LeftWaitingOrdered | Core/queue_system.py:106-110 | shrunken queues still name only tickets of their own service |
| Invariants.LeftWaitingStillQueued | Core/queue_system.py:95-110 | every ticket still WAITING stays queued, and every ticket stays issued |
| Invariants.LeftWaitingStatuses | Core/queue_system.py:95-110 | every queued ticket is still WAITING or DONE after a finish (the ticket kept queued) or a cancel (the ticket dequeued) |
| Invariants.FinishTicketKeepsValid | Core/queue_system.py:91-99 | `finish_ticket` keeps the invariant |
| Invariants.CancelTicketKeepsValid | Core/queue_system.py:101-114 | `cancel_ticket` keeps the invariant |
| Properties.OneWaitingTicketPerCustomer | Core/queue_system.py:51-52 | a customer never has two WAITING tickets |
| Properties.WaitingIffWaitingTicket | Core/queue_system.py:51-61 | a customer is waiting exactly when one of its tickets is WAITING |
| Properties.SecondTicketBlocked | Core/queue_system.py:50-52 | while its ticket is WAITING, a customer's further `create_ticket` raises and changes nothing |
| Properties.CreateTicketOnlyChecksFail | Core/queue_system.py:44-58 | in a consistent system `create_ticket` succeeds exactly when its three checks pass, with a fresh id |
| Properties.AddedCustomerIsFound | Core/queue_system.py:22-31 | `get_customer` returns exactly the record `add_customer` registered, and every other lookup answers as it did before |
| Properties.PeekPreviewsCall | Core/queue_system.py:66-88 | in a consistent system `peek_next_ticket` never raises; it shows no head exactly when `call_next_ticket` returns `None`; a WAITING head it shows is the ticket that gets called (same id, customer, service and creation time, now CALLED); any other head it shows is the one the call refuses |
| Properties.ReleasedOnCall | Core/queue_system.py:83-85 | right after its ticket is called, the customer is not waiting and can open a new ticket |
| Properties.CallNextFailsOnlyOnFinished | Core/queue_system.py:77-79 | in a consistent system `call_next_ticket` raises only on a DONE head, which is popped all the same |
| Properties.FinishedTicketStaysQueued | Core/queue_system.py:91-99 | finishing a WAITING ticket leaves it queued as DONE, and the queue length unchanged |
| Properties.CancelShortensQueue | Core/queue_system.py:101-110 | cancelling a WAITING ticket takes it out of its queue; cancelling a CALLED one touches no queue |
| Properties.AppendRaisesEstimate | Core/queue_system.py:116-122 | appending one id to a service's queue raises its length by one and its estimate by one average, and changes no other estimate |
| Properties.CreateTicketRaisesEstimate | Core/queue_system.py:116-122 | a new ticket adds one to its queue's length and one average to its estimate, and leaves other services' estimates alone |
| Properties.CallNextShortensQueue | Core/queue_system.py:73-77 | calling on a non-empty queue shortens it by one, whatever the outcome |
| Properties.SeededIsValid | Core/queue_system.py:23-38 | a system with one service and two fresh customers is consistent and has an empty queue |
| Properties.TwoCustomersQueueInArrivalOrder | Core/queue_system.py:44-64 | two idle customers queueing for an empty service get consecutive ids in arrival order, whatever their priority flags; the estimate is then twice the average; the first cannot queue again |
| Properties.FinishedHeadScenario | Core/queue_system.py:66-99 | a ticket created and then finished on an empty queue is peeked as DONE; calling it raises and still empties the queue |

## Left out

- `gui_app.py`, `app_init.py` and `main.py`: the tkinter front end and the demo seeding and startup. The seeding calls `create_ticket` with a priority argument and imports `PriorityCustomer`; neither exists in the core.
- `QueueSystem.list_services`: it returns the services in dictionary insertion order, and a Dafny `map` has no order.
- `Ticket.summary`: wall-clock formatting only.
- Wall-clock time: each operation takes one opaque `now` string. It is used for `created_at` and for every log entry the call writes, whereas the source reads the clock at each entry.
- `int(...)` coercion of priority inputs: priorities are integers already.
- `notify` prints. The model keeps the printed lines in the ticket's `notices` outbox instead.
- `Person` is never built on its own by the core. Its fields and methods live in the `Customer` record.
- `Customer.priority` is stored but never read by the core.
- Object aliasing: the source stores the caller's `Customer` and `Service` objects, so code outside the core (the GUI) can mutate them in place. The model's records are values, and only the core's operations change them.
- Ticket ids passed to `finish_ticket` and `cancel_ticket` are natural numbers, not arbitrary strings. A string that is not `T<digits>` is unknown in the source, just as an unissued number is unknown here.

=== FILE: dispatch.dfy ===
/** `QueueSystem`: the registries of customers, services and tickets, one FIFO
    queue of ticket ids per service, and the counter ticket ids come from.

    Every mutating operation returns a `Step`: the system after the call and what
    the call returned or raised. Where the source mutates before it raises (the
    queue pop in `call_next_ticket`, the ticket transition before the customer
    lookup, the counter bump before the queue lookup in `create_ticket`), the
    system in the `Step` keeps those mutations. */
module Dispatch {
  import opened Wrappers
  import Render
  import Lists
  import Persons
  import Services
  import Tickets

  /** The counter's start; the first ticket issued is `T1001`. */
  const InitialCounter: nat := 1000

  datatype QueueSystem = QueueSystem(
    customers: map<string, Persons.Customer>,
    services: map<string, Services.Service>,
    tickets: map<nat, Tickets.Ticket>,
    queuesByService: map<string, seq<nat>>,
    ticketCounter: nat)

  datatype Step<+T> = Step(sys: QueueSystem, result: Result<T>)

  const CustomerExists := ValueError("Customer already exists")
  const ServiceExists := ValueError("Service already exists")
  const CustomerNotFound := KeyError("Customer not found")
  const ServiceNotFound := KeyError("Service not found")
  const TicketNotFound := KeyError("Ticket not found")
  const AlreadyWaiting := ValueError("Customer already has an active ticket")

  /** The log lines the queue system itself writes into a ticket's audit log. */
  const AddedToQueue := "Added to queue"
  const ReleasedOnCallNote := "Customer released from queue on CALL"

  /** `m'` agrees with `m` on every key of `m` other than `k`. */
  predicate AgreeExcept<K, V(==)>(m: map<K, V>, m': map<K, V>, k: K) {
    forall x :: x in m && x != k ==> x in m' && m'[x] == m[x]
  }

  /** `QueueSystem.__init__`: empty registries, counter at 1000. */
  function Init(): (s: QueueSystem)
    ensures |s.customers| == 0 && |s.services| == 0 && |s.tickets| == 0 && |s.queuesByService| == 0
    ensures s.ticketCounter == InitialCounter
  {
    QueueSystem(map[], map[], map[], map[], InitialCounter)
  }

  /** `queues_by_service.get(service_id, [])`. */
  function QueueOf(s: QueueSystem, serviceId: string): (q: seq<nat>)
    ensures serviceId in s.queuesByService ==> q == s.queuesByService[serviceId]
    ensures serviceId !in s.queuesByService ==> q == []
  {
    if serviceId in s.queuesByService then s.queuesByService[serviceId] else []
  }

  /** `add_customer`: a duplicate id is refused and nothing changes; otherwise
      only the customer registry gains the one entry. */
  function AddCustomer(s: QueueSystem, c: Persons.Customer): (r: Step<()>)
    ensures r.result.Err? <==> c.personId in s.customers
    ensures r.result.Err? ==> r.result.error == CustomerExists && r.sys == s
    ensures r.result.Ok? ==> r.sys.customers.Keys == s.customers.Keys + {c.personId}
    ensures r.result.Ok? ==> r.sys.customers[c.personId] == c
    ensures r.result.Ok? ==> AgreeExcept(s.customers, r.sys.customers, c.personId)
    ensures r.sys.services == s.services && r.sys.tickets == s.tickets
    ensures r.sys.queuesByService == s.queuesByService && r.sys.ticketCounter == s.ticketCounter
  {
    if c.personId in s.customers then Step(s, Err(CustomerExists))
    else Step(s.(customers := s.customers[c.personId := c]), Ok(()))
  }

  /** `get_customer`. */
  function GetCustomer(s: QueueSystem, customerId: string): (r: Result<Persons.Customer>)
    ensures r.Ok? <==> customerId in s.customers
    ensures r.Ok? ==> r.value == s.customers[customerId]
    ensures r.Err? ==> r.error == CustomerNotFound
  {
    if customerId !in s.customers then Err(CustomerNotFound) else Ok(s.customers[customerId])
  }

  /** `add_service`: a duplicate id is refused and nothing changes; otherwise the
      service is registered together with an empty queue of its own. */
  function AddService(s: QueueSystem, svc: Services.Service): (r: Step<()>)
    ensures r.result.Err? <==> svc.serviceId in s.services
    ensures r.result.Err? ==> r.result.error == ServiceExists && r.sys == s
    ensures r.result.Ok? ==> r.sys.services.Keys == s.services.Keys + {svc.serviceId}
    ensures r.result.Ok? ==> r.sys.services[svc.serviceId] == svc
    ensures r.result.Ok? ==> AgreeExcept(s.services, r.sys.services, svc.serviceId)
    ensures r.result.Ok? ==> r.sys.queuesByService.Keys == s.queuesByService.Keys + {svc.serviceId}
    ensures r.result.Ok? ==> r.sys.queuesByService[svc.serviceId] == []
    ensures r.result.Ok? ==> AgreeExcept(s.queuesByService, r.sys.queuesByService, svc.serviceId)
    ensures r.sys.customers == s.customers && r.sys.tickets == s.tickets && r.sys.ticketCounter == s.ticketCounter
  {
    if svc.serviceId in s.services then Step(s, Err(ServiceExists))
    else
      Step(s.(services := s.services[svc.serviceId := svc],
              queuesByService := s.queuesByService[svc.serviceId := []]), Ok(()))
  }

  /** `create_ticket`. The three refusals (unknown customer, unknown service, a
      customer already waiting) happen before anything changes. On success the
      counter moves up by one, a WAITING ticket of priority 0 is stored under the
      new counter value, its id goes to the tail of that service's queue only, and
      the customer's active reference names it. */
  function CreateTicket(s: QueueSystem, customerId: string, serviceId: string, now: string): (r: Step<Tickets.Ticket>)
    ensures customerId !in s.customers ==> r == Step(s, Err(CustomerNotFound))
    ensures customerId in s.customers && serviceId !in s.services ==> r == Step(s, Err(ServiceNotFound))
    ensures customerId in s.customers && serviceId in s.services && s.customers[customerId].IsWaiting()
      ==> r == Step(s, Err(AlreadyWaiting))
    ensures r.result.Ok? <==> && customerId in s.customers && serviceId in s.services
                              && !s.customers[customerId].IsWaiting() && serviceId in s.queuesByService
    ensures r.result.Ok? ==> r.sys.ticketCounter == s.ticketCounter + 1
    ensures r.result.Ok? ==>
      var t := r.result.value;
      && t.ticketId == s.ticketCounter + 1
      && t.customerId == customerId && t.serviceId == serviceId
      && t.status == Tickets.Waiting && t.priority == 0
      && |t.auditLog| == 2 && t.notices == []
      && t == Tickets.AppendLog(Tickets.NewTicket(t.ticketId, customerId, serviceId, 0, now), now, AddedToQueue)
      && r.sys.tickets.Keys == s.tickets.Keys + {t.ticketId}
      && r.sys.tickets[t.ticketId] == t
      && AgreeExcept(s.tickets, r.sys.tickets, t.ticketId)
      && r.sys.queuesByService.Keys == s.queuesByService.Keys
      && r.sys.queuesByService[serviceId] == s.queuesByService[serviceId] + [t.ticketId]
      && AgreeExcept(s.queuesByService, r.sys.queuesByService, serviceId)
      && r.sys.customers.Keys == s.customers.Keys
      && r.sys.customers[customerId] == Persons.SetActiveTicket(s.customers[customerId], Some(t.ticketId))
      && AgreeExcept(s.customers, r.sys.customers, customerId)
      && r.sys.services == s.services
  {
    if customerId !in s.customers then Step(s, Err(CustomerNotFound))
    else if serviceId !in s.services then Step(s, Err(ServiceNotFound))
    else if s.customers[customerId].IsWaiting() then Step(s, Err(AlreadyWaiting))
    else
      var id := s.ticketCounter + 1;
      var t := Tickets.NewTicket(id, customerId, serviceId, 0, now);
      var s1 := s.(ticketCounter := id, tickets := s.tickets[id := t]);
      if serviceId !in s1.queuesByService then Step(s1, Err(KeyError(serviceId)))
      else
        var t' := Tickets.AppendLog(t, now, AddedToQueue);
        var c := Persons.SetActiveTicket(s1.customers[customerId], Some(id));
        Step(s1.(queuesByService := s1.queuesByService[serviceId := s1.queuesByService[serviceId] + [id]],
                 customers := s1.customers[customerId := c],
                 tickets := s1.tickets[id := t']),
             Ok(t'))
  }

  /** `peek_next_ticket`: the ticket at the head of the queue, if any; nothing changes. */
  function PeekNext(s: QueueSystem, serviceId: string): (r: Result<Option<Tickets.Ticket>>)
    ensures |QueueOf(s, serviceId)| == 0 <==> r == Ok(None)
    ensures r.Ok? && r.value.Some? ==>
      QueueOf(s, serviceId)[0] in s.tickets && r.value.value == s.tickets[QueueOf(s, serviceId)[0]]
    ensures r.Err? ==> QueueOf(s, serviceId)[0] !in s.tickets
  {
    var q := QueueOf(s, serviceId);
    if |q| == 0 then Ok(None)
    else if q[0] !in s.tickets then Err(KeyError(Render.TicketName(q[0])))
    else Ok(Some(s.tickets[q[0]]))
  }

  /** The customer record with its active reference cleared if, and only if, it
      names `ticketId`; no other field changes. */
  function Released(c: Persons.Customer, ticketId: nat): (c': Persons.Customer)
    ensures c'.activeTicketId == (if c.activeTicketId == Some(ticketId) then None else c.activeTicketId)
    ensures Persons.SetActiveTicket(c', c.activeTicketId) == c
  {
    if c.activeTicketId == Some(ticketId) then Persons.SetActiveTicket(c, None) else c
  }

  /** Clears the customer's active reference if, and only if, it names `ticketId`. */
  function Release(s: QueueSystem, customerId: string, ticketId: nat): (s': QueueSystem)
    requires customerId in s.customers
    ensures s'.customers.Keys == s.customers.Keys
    ensures s'.customers[customerId].activeTicketId ==
      (if s.customers[customerId].activeTicketId == Some(ticketId) then None
       else s.customers[customerId].activeTicketId)
    ensures s'.customers[customerId] == Released(s.customers[customerId], ticketId)
    ensures AgreeExcept(s.customers, s'.customers, customerId)
    ensures s'.services == s.services && s'.tickets == s.tickets
    ensures s'.queuesByService == s.queuesByService && s'.ticketCounter == s.ticketCounter
  {
    var c := s.customers[customerId];
    if c.activeTicketId == Some(ticketId) then
      s.(customers := s.customers[customerId := Persons.SetActiveTicket(c, None)])
    else s
  }

  /** `call_next_ticket`. An empty or unknown queue gives `None` and changes
      nothing. Otherwise the head id is popped first, so it is gone even when the
      ticket then refuses `mark_called`; on success the ticket is CALLED and its
      customer is released if the reference named it. */
  function CallNext(s: QueueSystem, serviceId: string, now: string): (r: Step<Option<Tickets.Ticket>>)
    ensures |QueueOf(s, serviceId)| == 0 ==> r == Step(s, Ok(None))
    ensures |QueueOf(s, serviceId)| > 0 ==> r.result != Ok(None)
    ensures |QueueOf(s, serviceId)| > 0 && QueueOf(s, serviceId)[0] !in s.tickets ==>
      && r.result == Err(KeyError(Render.TicketName(QueueOf(s, serviceId)[0])))
      && r.sys.tickets == s.tickets && r.sys.customers == s.customers
    ensures var q := QueueOf(s, serviceId);
      |q| > 0 && q[0] in s.tickets && s.tickets[q[0]].status == Tickets.Waiting
      && s.tickets[q[0]].customerId !in s.customers ==>
        && r.result == Err(KeyError(s.tickets[q[0]].customerId))
        && r.sys.tickets == s.tickets[q[0] := Tickets.MarkCalled(s.tickets[q[0]], now).value]
        && r.sys.customers == s.customers
    ensures |QueueOf(s, serviceId)| > 0 ==>
      var q := QueueOf(s, serviceId);
      && r.sys.queuesByService.Keys == s.queuesByService.Keys
      && r.sys.queuesByService[serviceId] == q[1..]
      && AgreeExcept(s.queuesByService, r.sys.queuesByService, serviceId)
      && r.sys.services == s.services && r.sys.ticketCounter == s.ticketCounter
    ensures (|QueueOf(s, serviceId)| > 0 && QueueOf(s, serviceId)[0] in s.tickets
             && s.tickets[QueueOf(s, serviceId)[0]].status != Tickets.Waiting) ==>
      && r.result == Err(Tickets.NotCallable)
      && r.sys.tickets == s.tickets && r.sys.customers == s.customers
    ensures r.result.Ok? && r.result.value.Some? ==>
      var id := QueueOf(s, serviceId)[0];
      var t := r.result.value.value;
      && |QueueOf(s, serviceId)| > 0 && id in s.tickets
      && s.tickets[id].status == Tickets.Waiting
      && Tickets.SameIdentity(s.tickets[id], t) && t.status == Tickets.Called
      && |t.auditLog| == |s.tickets[id].auditLog| + 2
      && |t.notices| == |s.tickets[id].notices| + 1
      && t == Tickets.AppendLog(Tickets.MarkCalled(s.tickets[id], now).value, now, ReleasedOnCallNote)
      && r.sys.tickets.Keys == s.tickets.Keys && r.sys.tickets[id] == t
      && AgreeExcept(s.tickets, r.sys.tickets, id)
      && t.customerId in s.customers
      && r.sys.customers.Keys == s.customers.Keys
      && r.sys.customers[t.customerId] == Released(s.customers[t.customerId], id)
      && AgreeExcept(s.customers, r.sys.customers, t.customerId)
    ensures var q := QueueOf(s, serviceId);
      |q| > 0 && q[0] in s.tickets && s.tickets[q[0]].status == Tickets.Waiting
      && s.tickets[q[0]].customerId in s.customers ==>
        r.result.Ok? && r.result.value.Some?
  {
    var q := QueueOf(s, serviceId);
    if |q| == 0 then Step(s, Ok(None))
    else
      var id := q[0];
      var s1 := s.(queuesByService := s.queuesByService[serviceId := q[1..]]);
      if id !in s1.tickets then Step(s1, Err(KeyError(Render.TicketName(id))))
      else
        match Tickets.MarkCalled(s1.tickets[id], now)
        case Err(e) => Step(s1, Err(e))
        case Ok(t) =>
          var s2 := s1.(tickets := s1.tickets[id := t]);
          if t.customerId !in s2.customers then Step(s2, Err(KeyError(t.customerId)))
          else
            var s3 := Release(s2, t.customerId, id);
            var t' := Tickets.AppendLog(t, now, ReleasedOnCallNote);
            Step(s3.(tickets := s3.tickets[id := t']), Ok(Some(t')))
  }

  /** `finish_ticket`: an unknown id raises; the ticket itself decides whether it
      may be finished; its customer is released if the reference named it. No
      queue is touched, so a WAITING ticket that is finished stays queued. */
  function FinishTicket(s: QueueSystem, ticketId: nat, now: string): (r: Step<()>)
    ensures ticketId !in s.tickets ==> r == Step(s, Err(TicketNotFound))
    ensures ticketId in s.tickets && Tickets.MarkDone(s.tickets[ticketId], now).Err? ==>
      r == Step(s, Err(Tickets.NotFinishable))
    ensures r.sys.queuesByService == s.queuesByService
    ensures r.sys.services == s.services && r.sys.ticketCounter == s.ticketCounter
    ensures r.result.Ok? <==>
      ticketId in s.tickets && s.tickets[ticketId].status in {Tickets.Waiting, Tickets.Called}
      && s.tickets[ticketId].customerId in s.customers
    ensures r.result.Ok? ==>
      var t := s.tickets[ticketId];
      && r.sys.tickets.Keys == s.tickets.Keys
      && r.sys.tickets[ticketId].status == Tickets.Done
      && Tickets.SameIdentity(t, r.sys.tickets[ticketId])
      && r.sys.tickets[ticketId] == Tickets.MarkDone(t, now).value
      && AgreeExcept(s.tickets, r.sys.tickets, ticketId)
      && r.sys.customers.Keys == s.customers.Keys
      && r.sys.customers[t.customerId] == Released(s.customers[t.customerId], ticketId)
      && AgreeExcept(s.customers, r.sys.customers, t.customerId)
  {
    if ticketId !in s.tickets then Step(s, Err(TicketNotFound))
    else
      match Tickets.MarkDone(s.tickets[ticketId], now)
      case Err(e) => Step(s, Err(e))
      case Ok(t) =>
        var s1 := s.(tickets := s.tickets[ticketId := t]);
        if t.customerId !in s1.customers then Step(s1, Err(KeyError(t.customerId)))
        else Step(Release(s1, t.customerId, ticketId), Ok(()))
  }

  /** The queue of `serviceId` with `ticketId` taken out, if it was in it. */
  function Dequeue(s: QueueSystem, serviceId: string, ticketId: nat): (s': QueueSystem)
    ensures s'.queuesByService.Keys == s.queuesByService.Keys
    ensures ticketId in QueueOf(s, serviceId) ==>
      s'.queuesByService[serviceId] == Lists.RemoveFirst(s.queuesByService[serviceId], ticketId)
    ensures ticketId !in QueueOf(s, serviceId) ==> s'.queuesByService == s.queuesByService
    ensures AgreeExcept(s.queuesByService, s'.queuesByService, serviceId)
    ensures s'.customers == s.customers && s'.services == s.services
    ensures s'.tickets == s.tickets && s'.ticketCounter == s.ticketCounter
  {
    var q := QueueOf(s, serviceId);
    if ticketId in q then
      s.(queuesByService := s.queuesByService[serviceId := Lists.RemoveFirst(q, ticketId)])
    else s
  }

  /** `cancel_ticket`: an unknown id raises; the ticket itself decides whether it
      may be cancelled (CALLED ones may); the id leaves its service's queue if it
      is there; its customer is released if the reference named it. */
  function CancelTicket(s: QueueSystem, ticketId: nat, now: string): (r: Step<()>)
    ensures ticketId !in s.tickets ==> r == Step(s, Err(TicketNotFound))
    ensures ticketId in s.tickets && Tickets.IsTerminal(s.tickets[ticketId].status) ==>
      r == Step(s, Err(Tickets.AlreadyClosed))
    ensures r.sys.services == s.services && r.sys.ticketCounter == s.ticketCounter
    ensures r.result.Ok? <==>
      ticketId in s.tickets && !Tickets.IsTerminal(s.tickets[ticketId].status)
      && s.tickets[ticketId].customerId in s.customers
    ensures ticketId in s.tickets && !Tickets.IsTerminal(s.tickets[ticketId].status) ==>
      var sid := s.tickets[ticketId].serviceId;
      && r.sys.queuesByService.Keys == s.queuesByService.Keys
      && (ticketId in QueueOf(s, sid) ==>
            r.sys.queuesByService[sid] == Lists.RemoveFirst(s.queuesByService[sid], ticketId))
      && (ticketId !in QueueOf(s, sid) ==> r.sys.queuesByService == s.queuesByService)
      && AgreeExcept(s.queuesByService, r.sys.queuesByService, sid)
      && r.sys.tickets.Keys == s.tickets.Keys
      && r.sys.tickets[ticketId].status == Tickets.Canceled
      && Tickets.SameIdentity(s.tickets[ticketId], r.sys.tickets[ticketId])
      && r.sys.tickets[ticketId] == Tickets.Cancel(s.tickets[ticketId], now).value
      && AgreeExcept(s.tickets, r.sys.tickets, ticketId)
    ensures r.result.Ok? ==>
      var c := s.tickets[ticketId].customerId;
      && r.sys.customers.Keys == s.customers.Keys
      && r.sys.customers[c] == Released(s.customers[c], ticketId)
      && AgreeExcept(s.customers, r.sys.customers, c)
  {
    if ticketId !in s.tickets then Step(s, Err(TicketNotFound))
    else
      match Tickets.Cancel(s.tickets[ticketId], now)
      case Err(e) => Step(s, Err(e))
      case Ok(t) =>
        var s1 := s.(tickets := s.tickets[ticketId := t]);
        var s2 := Dequeue(s1, t.serviceId, ticketId);
        if t.customerId !in s2.customers then Step(s2, Err(KeyError(t.customerId)))
        else Step(Release(s2, t.customerId, ticketId), Ok(()))
  }

  /** `queue_length`: 0 for a service that has no queue. */
  function QueueLength(s: QueueSystem, serviceId: string): (n: nat)
    ensures serviceId !in s.queuesByService ==> n == 0
    ensures serviceId in s.queuesByService ==> n == |s.queuesByService[serviceId]|
  {
    |QueueOf(s, serviceId)|
  }

  /** `estimate_wait_minutes`: queue length times the service's average; an
      unknown service raises. */
  function EstimateWaitMinutes(s: QueueSystem, serviceId: string): (r: Result<int>)
    ensures r.Err? <==> serviceId !in s.services
    ensures r.Err? ==> r.error == ServiceNotFound
    ensures r.Ok? ==> r.value == QueueLength(s, serviceId) * s.services[serviceId].avgMinutes
  {
    if serviceId !in s.services then Err(ServiceNotFound)
    else Ok(QueueLength(s, serviceId) * s.services[serviceId].avgMinutes)
  }
}

=== FILE: invariants.dfy ===
/** The invariant that binds customers, tickets and queues together, and proofs
    that every `QueueSystem` operation keeps it. What it deliberately does NOT
    say is that queues hold only WAITING tickets: `finish_ticket` leaves a
    finished ticket queued, and `Properties.FinishedTicketStaysQueued` shows it. */
module Invariants {
  import opened Wrappers
  import Lists
  import Persons
  import Services
  import Tickets
  import opened Dispatch

  /** Each registry is keyed by its entries' own ids, and every service has a queue. */
  predicate RegistriesKeyed(s: QueueSystem) {
    && (forall k :: k in s.customers ==> s.customers[k].personId == k)
    && (forall k :: k in s.services ==> s.services[k].serviceId == k)
    && s.queuesByService.Keys == s.services.Keys
  }

  /** Every ticket was issued by the counter, belongs to a registered customer and
      service, and has priority 0 (nothing in the system ever changes it). */
  predicate TicketsIssued(s: QueueSystem) {
    && s.ticketCounter >= InitialCounter
    && forall id :: id in s.tickets ==>
         && InitialCounter < id <= s.ticketCounter
         && s.tickets[id].ticketId == id
         && s.tickets[id].customerId in s.customers
         && s.tickets[id].serviceId in s.services
         && s.tickets[id].priority == 0
  }

  /** Each queue is in issue order (so FIFO and free of repeats) and names only
      tickets of its own service. */
  predicate QueuesOrdered(s: QueueSystem) {
    forall sid :: sid in s.queuesByService ==>
      && Lists.Increasing(s.queuesByService[sid])
      && forall i :: 0 <= i < |s.queuesByService[sid]| ==>
           && s.queuesByService[sid][i] in s.tickets
           && s.tickets[s.queuesByService[sid][i]].serviceId == sid
  }

  /** A WAITING ticket is always in its service's queue. */
  predicate WaitingQueued(s: QueueSystem) {
    forall id :: id in s.tickets && s.tickets[id].status == Tickets.Waiting ==>
      id in QueueOf(s, s.tickets[id].serviceId)
  }

  /** A set active reference names a WAITING ticket of that customer, and every
      WAITING ticket is named by its customer's reference. */
  predicate ActiveRefsExact(s: QueueSystem) {
    && (forall cid :: cid in s.customers && s.customers[cid].activeTicketId.Some? ==>
          && s.customers[cid].activeTicketId.value in s.tickets
          && s.tickets[s.customers[cid].activeTicketId.value].status == Tickets.Waiting
          && s.tickets[s.customers[cid].activeTicketId.value].customerId == cid)
    && (forall id :: id in s.tickets && s.tickets[id].status == Tickets.Waiting ==>
          s.tickets[id].customerId in s.customers
          && s.customers[s.tickets[id].customerId].activeTicketId == Some(id))
  }

  /** A queued ticket is WAITING, or DONE because it was finished while still queued;
      it is never CALLED (calling pops it) nor CANCELED (cancelling dequeues it). */
  predicate QueuedWaitingOrDone(s: QueueSystem) {
    forall sid, i ::
      sid in s.queuesByService && 0 <= i < |s.queuesByService[sid]| && s.queuesByService[sid][i] in s.tickets ==>
        s.tickets[s.queuesByService[sid][i]].status == Tickets.Waiting
        || s.tickets[s.queuesByService[sid][i]].status == Tickets.Done
  }

  predicate Valid(s: QueueSystem) {
    && RegistriesKeyed(s)
    && TicketsIssued(s)
    && QueuesOrdered(s)
    && WaitingQueued(s)
    && ActiveRefsExact(s)
    && QueuedWaitingOrDone(s)
  }

  lemma InitValid()
    ensures Valid(Init())
  {
  }

  /** Registering a customer keeps the invariant as long as the customer object
      handed in holds no active reference yet (as a fresh `Customer` does). */
  lemma AddCustomerKeepsValid(s: QueueSystem, c: Persons.Customer)
    requires Valid(s) && !c.IsWaiting()
    ensures Valid(AddCustomer(s, c).sys)
  {
  }

  lemma AddServiceKeepsValid(s: QueueSystem, svc: Services.Service)
    requires Valid(s)
    ensures Valid(AddService(s, svc).sys)
  {
    var s' := AddService(s, svc).sys;
    if svc.serviceId !in s.services {
      forall id | id in s'.tickets && s'.tickets[id].status == Tickets.Waiting
        ensures id in QueueOf(s', s'.tickets[id].serviceId)
      {
        assert s.tickets[id].serviceId != svc.serviceId;
      }
    }
  }

  /** The counter is always ahead of every issued id, so the next id is fresh. */
  lemma NextIdIsFresh(s: QueueSystem)
    requires Valid(s)
    ensures s.ticketCounter + 1 !in s.tickets
    ensures forall sid :: sid in s.queuesByService ==> s.ticketCounter + 1 !in s.queuesByService[sid]
  {
  }

  /** The state a successful `create_ticket` leaves, spelled out as map updates. */
  lemma CreateTicketShape(s: QueueSystem, customerId: string, serviceId: string, now: string)
    requires CreateTicket(s, customerId, serviceId, now).result.Ok?
    ensures var r := CreateTicket(s, customerId, serviceId, now);
      var id := s.ticketCounter + 1;
      r.sys == QueueSystem(
        s.customers[customerId := Persons.SetActiveTicket(s.customers[customerId], Some(id))],
        s.services,
        s.tickets[id := r.result.value],
        s.queuesByService[serviceId := s.queuesByService[serviceId] + [id]],
        id)
  {
  }

  /** A queue in issue order, extended by an id above all its entries, stays in issue order. */
  lemma AppendKeepsIncreasing(q: seq<nat>, id: nat)
    requires Lists.Increasing(q)
    requires forall k :: 0 <= k < |q| ==> q[k] < id
    ensures Lists.Increasing(q + [id])
  {
  }

  lemma CreateTicketKeepsQueuesOrdered(s: QueueSystem, customerId: string, serviceId: string, now: string)
    requires Valid(s) && CreateTicket(s, customerId, serviceId, now).result.Ok?
    ensures QueuesOrdered(CreateTicket(s, customerId, serviceId, now).sys)
  {
    var r := CreateTicket(s, customerId, serviceId, now);
    CreateTicketShape(s, customerId, serviceId, now);
    AppendedQueuesOrdered(s, serviceId, r.result.value, r.sys);
  }

  /** Storing a ticket under the next id and appending that id to its own
      service's queue keeps every queue ordered and naming its own tickets. */
  lemma AppendedQueuesOrdered(s: QueueSystem, serviceId: string, t: Tickets.Ticket, s': QueueSystem)
    requires Valid(s) && serviceId in s.queuesByService && t.serviceId == serviceId
    requires s'.tickets == s.tickets[s.ticketCounter + 1 := t]
    requires s'.queuesByService ==
      s.queuesByService[serviceId := s.queuesByService[serviceId] + [s.ticketCounter + 1]]
    ensures QueuesOrdered(s')
  {
    var id := s.ticketCounter + 1;
    var q := s.queuesByService[serviceId];
    forall k | 0 <= k < |q|
      ensures q[k] < id
    {
      assert q[k] in s.tickets;
    }
    AppendKeepsIncreasing(q, id);
    forall sid | sid in s'.queuesByService
      ensures Lists.Increasing(s'.queuesByService[sid])
      ensures forall i :: 0 <= i < |s'.queuesByService[sid]| ==>
        && s'.queuesByService[sid][i] in s'.tickets
        && s'.tickets[s'.queuesByService[sid][i]].serviceId == sid
    {
      if sid == serviceId {
        forall i | 0 <= i < |s'.queuesByService[sid]|
          ensures s'.queuesByService[sid][i] in s'.tickets
          ensures s'.tickets[s'.queuesByService[sid][i]].serviceId == sid
        {
          if i < |q| {
            assert s'.queuesByService[sid][i] == q[i];
          }
        }
      } else {
        assert s'.queuesByService[sid] == s.queuesByService[sid];
      }
    }
  }

  lemma CreateTicketKeepsWaitingQueued(s: QueueSystem, customerId: string, serviceId: string, now: string)
    requires Valid(s) && CreateTicket(s, customerId, serviceId, now).result.Ok?
    ensures WaitingQueued(CreateTicket(s, customerId, serviceId, now).sys)
  {
    var s' := CreateTicket(s, customerId, serviceId, now).sys;
    var id := s.ticketCounter + 1;
    CreateTicketShape(s, customerId, serviceId, now);
    forall tid | tid in s'.tickets && s'.tickets[tid].status == Tickets.Waiting
      ensures tid in QueueOf(s', s'.tickets[tid].serviceId)
    {
      if tid != id {
        var sid := s.tickets[tid].serviceId;
        assert tid in QueueOf(s, sid);
        if sid == serviceId {
          assert QueueOf(s', sid) == QueueOf(s, sid) + [id];
        }
      } else {
        assert QueueOf(s', serviceId)[|QueueOf(s', serviceId)| - 1] == id;
      }
    }
  }

  lemma CreateTicketKeepsActiveRefs(s: QueueSystem, customerId: string, serviceId: string, now: string)
    requires Valid(s) && CreateTicket(s, customerId, serviceId, now).result.Ok?
    ensures ActiveRefsExact(CreateTicket(s, customerId, serviceId, now).sys)
  {
    var s' := CreateTicket(s, customerId, serviceId, now).sys;
    var id := s.ticketCounter + 1;
    CreateTicketShape(s, customerId, serviceId, now);
    NextIdIsFresh(s);
    forall tid | tid in s'.tickets && s'.tickets[tid].status == Tickets.Waiting
      ensures s'.tickets[tid].customerId in s'.customers
      ensures s'.customers[s'.tickets[tid].customerId].activeTicketId == Some(tid)
    {
      if tid != id {
        assert s.tickets[tid].customerId != customerId;
      }
    }
  }

  lemma CreateTicketKeepsIssued(s: QueueSystem, customerId: string, serviceId: string, now: string)
    requires Valid(s) && CreateTicket(s, customerId, serviceId, now).result.Ok?
    ensures RegistriesKeyed(CreateTicket(s, customerId, serviceId, now).sys)
    ensures TicketsIssued(CreateTicket(s, customerId, serviceId, now).sys)
  {
    CreateTicketShape(s, customerId, serviceId, now);
  }

  lemma CreateTicketKeepsValid(s: QueueSystem, customerId: string, serviceId: string, now: string)
    requires Valid(s)
    ensures Valid(CreateTicket(s, customerId, serviceId, now).sys)
  {
    if CreateTicket(s, customerId, serviceId, now).result.Ok? {
      CreateTicketKeepsIssued(s, customerId, serviceId, now);
      CreateTicketKeepsQueuesOrdered(s, customerId, serviceId, now);
      CreateTicketKeepsWaitingQueued(s, customerId, serviceId, now);
      CreateTicketKeepsActiveRefs(s, customerId, serviceId, now);
      CreateTicketKeepsQueuedStatuses(s, customerId, serviceId, now);
    }
  }

  lemma CreateTicketKeepsQueuedStatuses(s: QueueSystem, customerId: string, serviceId: string, now: string)
    requires Valid(s) && CreateTicket(s, customerId, serviceId, now).result.Ok?
    ensures QueuedWaitingOrDone(CreateTicket(s, customerId, serviceId, now).sys)
  {
    var s' := CreateTicket(s, customerId, serviceId, now).sys;
    var id := s.ticketCounter + 1;
    CreateTicketShape(s, customerId, serviceId, now);
    NextIdIsFresh(s);
    forall sid, i | sid in s'.queuesByService && 0 <= i < |s'.queuesByService[sid]|
      ensures s'.queuesByService[sid][i] == id || s'.queuesByService[sid][i] in s.queuesByService[sid]
    {
      if sid == serviceId && i < |s.queuesByService[sid]| {
        assert s'.queuesByService[sid][i] == s.queuesByService[sid][i];
      }
    }
  }

  /** Popping the head of an ordered queue keeps it ordered and loses only the head. */
  lemma PopKeepsOrder(q: seq<nat>)
    requires |q| > 0 && Lists.Increasing(q)
    ensures Lists.Increasing(q[1..])
    ensures forall x :: x in q && x != q[0] ==> x in q[1..]
  {
    forall x | x in q && x != q[0]
      ensures x in q[1..]
    {
      var k :| 0 <= k < |q| && q[k] == x;
      assert q[1..][k - 1] == x;
    }
  }

  /** The state `call_next_ticket` leaves when the head is not WAITING. */
  lemma CallNextRefusedShape(s: QueueSystem, serviceId: string, now: string)
    requires Valid(s) && |QueueOf(s, serviceId)| > 0
    requires s.tickets[QueueOf(s, serviceId)[0]].status != Tickets.Waiting
    ensures CallNext(s, serviceId, now).sys ==
      s.(queuesByService := s.queuesByService[serviceId := QueueOf(s, serviceId)[1..]])
  {
  }

  /** The state a successful `call_next_ticket` leaves, spelled out as map updates. */
  lemma CallNextShape(s: QueueSystem, serviceId: string, now: string)
    requires Valid(s) && |QueueOf(s, serviceId)| > 0
    requires s.tickets[QueueOf(s, serviceId)[0]].status == Tickets.Waiting
    ensures var r := CallNext(s, serviceId, now);
      var id := QueueOf(s, serviceId)[0];
      var cid := s.tickets[id].customerId;
      && r.result.Ok? && r.result.value.Some?
      && s.customers[cid].activeTicketId == Some(id)
      && r.sys == QueueSystem(
           s.customers[cid := Persons.SetActiveTicket(s.customers[cid], None)],
           s.services,
           s.tickets[id := r.result.value.value],
           s.queuesByService[serviceId := QueueOf(s, serviceId)[1..]],
           s.ticketCounter)
  {
    assert ActiveRefsExact(s);
    CalledOwnerShape(s, serviceId, now);
  }

  /** `call_next_ticket` on a WAITING head whose customer's reference names it. */
  lemma CalledOwnerShape(s: QueueSystem, serviceId: string, now: string)
    requires |QueueOf(s, serviceId)| > 0
    requires var id := QueueOf(s, serviceId)[0];
      && id in s.tickets && s.tickets[id].status == Tickets.Waiting
      && s.tickets[id].customerId in s.customers
      && s.customers[s.tickets[id].customerId].activeTicketId == Some(id)
    ensures var r := CallNext(s, serviceId, now);
      var id := QueueOf(s, serviceId)[0];
      var cid := s.tickets[id].customerId;
      && r.result.Ok? && r.result.value.Some?
      && r.sys == QueueSystem(
           s.customers[cid := Persons.SetActiveTicket(s.customers[cid], None)],
           s.services,
           s.tickets[id := r.result.value.value],
           s.queuesByService[serviceId := QueueOf(s, serviceId)[1..]],
           s.ticketCounter)
  {
  }

  lemma PoppedStaleHeadValid(s: QueueSystem, serviceId: string)
    requires Valid(s) && |QueueOf(s, serviceId)| > 0
    requires s.tickets[QueueOf(s, serviceId)[0]].status != Tickets.Waiting
    ensures Valid(s.(queuesByService := s.queuesByService[serviceId := QueueOf(s, serviceId)[1..]]))
  {
    var q := QueueOf(s, serviceId);
    var s' := s.(queuesByService := s.queuesByService[serviceId := q[1..]]);
    PopKeepsOrder(q);
    assert QueuesOrdered(s');
    PoppedStaleHeadWaiting(s, serviceId);
    PoppedStaleHeadStatuses(s, serviceId);
  }

  /** Every WAITING ticket is still queued once a non-WAITING head is popped. */
  lemma PoppedStaleHeadWaiting(s: QueueSystem, serviceId: string)
    requires Valid(s) && |QueueOf(s, serviceId)| > 0
    requires s.tickets[QueueOf(s, serviceId)[0]].status != Tickets.Waiting
    ensures WaitingQueued(s.(queuesByService := s.queuesByService[serviceId := QueueOf(s, serviceId)[1..]]))
  {
    var q := QueueOf(s, serviceId);
    var s' := s.(queuesByService := s.queuesByService[serviceId := q[1..]]);
    PopKeepsOrder(q);
    forall tid | tid in s'.tickets && s'.tickets[tid].status == Tickets.Waiting
      ensures tid in QueueOf(s', s'.tickets[tid].serviceId)
    {
      assert tid in QueueOf(s, s.tickets[tid].serviceId);
    }
  }

  /** Popping a head leaves only entries that were queued before, so their statuses stay WAITING or DONE. */
  lemma PoppedStaleHeadStatuses(s: QueueSystem, serviceId: string)
    requires Valid(s) && |QueueOf(s, serviceId)| > 0
    ensures QueuedWaitingOrDone(s.(queuesByService := s.queuesByService[serviceId := QueueOf(s, serviceId)[1..]]))
  {
    var q := QueueOf(s, serviceId);
    var s' := s.(queuesByService := s.queuesByService[serviceId := q[1..]]);
    forall sid, i | sid in s'.queuesByService && 0 <= i < |s'.queuesByService[sid]|
      ensures s'.queuesByService[sid][i] in s.queuesByService[sid]
    {
      if sid == serviceId {
        assert s'.queuesByService[sid][i] == q[i + 1];
      }
    }
  }

  /** The queue part of the invariant after the head is called. */
  lemma CalledHeadQueuesValid(s: QueueSystem, serviceId: string, t: Tickets.Ticket, s': QueueSystem)
    requires Valid(s) && |QueueOf(s, serviceId)| > 0
    requires var id := QueueOf(s, serviceId)[0];
      && s.tickets[id].status == Tickets.Waiting
      && Tickets.SameIdentity(s.tickets[id], t) && t.status == Tickets.Called && t.priority == 0
      && s'.services == s.services && s'.ticketCounter == s.ticketCounter
      && s'.customers.Keys == s.customers.Keys
      && s'.tickets == s.tickets[id := t]
      && s'.queuesByService == s.queuesByService[serviceId := QueueOf(s, serviceId)[1..]]
    ensures QueuesOrdered(s') && WaitingQueued(s') && TicketsIssued(s') && QueuedWaitingOrDone(s')
  {
    var q := QueueOf(s, serviceId);
    var id := q[0];
    PopKeepsOrder(q);
    assert QueuesOrdered(s');
    forall tid | tid in s'.tickets && s'.tickets[tid].status == Tickets.Waiting
      ensures tid in QueueOf(s', s'.tickets[tid].serviceId)
    {
      assert tid != id;
      assert tid in QueueOf(s, s.tickets[tid].serviceId);
    }
    CalledHeadStatuses(s, serviceId, t, s');
  }

  /** After the head is called, no queue still names it, so every queued ticket
      keeps the status it had: WAITING or DONE. */
  lemma CalledHeadStatuses(s: QueueSystem, serviceId: string, t: Tickets.Ticket, s': QueueSystem)
    requires Valid(s) && |QueueOf(s, serviceId)| > 0
    requires var id := QueueOf(s, serviceId)[0];
      && s'.tickets == s.tickets[id := t]
      && s'.queuesByService == s.queuesByService[serviceId := QueueOf(s, serviceId)[1..]]
    ensures QueuedWaitingOrDone(s')
  {
    var q := QueueOf(s, serviceId);
    var id := q[0];
    forall sid, i | sid in s'.queuesByService && 0 <= i < |s'.queuesByService[sid]|
      ensures s'.queuesByService[sid][i] != id
      ensures s'.queuesByService[sid][i] in s.queuesByService[sid]
    {
      if sid == serviceId {
        assert s'.queuesByService[sid][i] == q[i + 1];
      } else {
        assert s.tickets[s.queuesByService[sid][i]].serviceId == sid;
      }
    }
  }

  /** The reference part of the invariant after a WAITING or CALLED ticket leaves
      WAITING status and its customer is released. */
  lemma LeftWaitingRefsValid(s: QueueSystem, id: nat, t: Tickets.Ticket, s': QueueSystem)
    requires Valid(s) && id in s.tickets
    requires Tickets.SameIdentity(s.tickets[id], t) && t.status != Tickets.Waiting
    requires s'.tickets == s.tickets[id := t]
    requires s'.customers == Release(s, t.customerId, id).customers
    ensures ActiveRefsExact(s')
  {
    var cid := t.customerId;
    forall c | c in s'.customers && s'.customers[c].activeTicketId.Some?
      ensures s'.customers[c].activeTicketId.value != id
    {
      if c != cid {
        assert s.tickets[s.customers[c].activeTicketId.value].customerId == c;
      }
    }
  }

  lemma CallNextRefusedKeepsValid(s: QueueSystem, serviceId: string, now: string)
    requires Valid(s) && |QueueOf(s, serviceId)| > 0
    requires s.tickets[QueueOf(s, serviceId)[0]].status != Tickets.Waiting
    ensures Valid(CallNext(s, serviceId, now).sys)
  {
    CallNextRefusedShape(s, serviceId, now);
    PoppedStaleHeadValid(s, serviceId);
  }

  lemma CallNextCalledKeepsValid(s: QueueSystem, serviceId: string, now: string)
    requires Valid(s) && |QueueOf(s, serviceId)| > 0
    requires s.tickets[QueueOf(s, serviceId)[0]].status == Tickets.Waiting
    ensures Valid(CallNext(s, serviceId, now).sys)
  {
    var r := CallNext(s, serviceId, now);
    var id := QueueOf(s, serviceId)[0];
    CallNextShape(s, serviceId, now);
    var t := r.result.value.value;
    assert r.sys.customers == Release(s, t.customerId, id).customers;
    CalledHeadQueuesValid(s, serviceId, t, r.sys);
    LeftWaitingRefsValid(s, id, t, r.sys);
  }

  lemma CallNextKeepsValid(s: QueueSystem, serviceId: string, now: string)
    requires Valid(s)
    ensures Valid(CallNext(s, serviceId, now).sys)
  {
    var q := QueueOf(s, serviceId);
    if |q| > 0 {
      if s.tickets[q[0]].status != Tickets.Waiting {
        CallNextRefusedKeepsValid(s, serviceId, now);
      } else {
        CallNextCalledKeepsValid(s, serviceId, now);
      }
    }
  }

  /** How a service's queue relates to the one before a ticket left WAITING:
      still in issue order, nothing new, and every other id kept. */
  predicate Shrunk(q: seq<nat>, q': seq<nat>, id: nat) {
    && Lists.Increasing(q')
    && (forall x :: x in q' ==> x in q)
    && (forall x :: x in q && x != id ==> x in q')
  }

  lemma DequeueShrinks(s: QueueSystem, sid: string, id: nat, dequeued: bool, s': QueueSystem)
    requires Valid(s)
    requires !dequeued ==> s'.queuesByService == s.queuesByService
    requires dequeued ==> s'.queuesByService == Dequeue(s, sid, id).queuesByService
    ensures s'.queuesByService.Keys == s.queuesByService.Keys
    ensures forall k :: k in s.queuesByService ==> Shrunk(s.queuesByService[k], s'.queuesByService[k], id)
    ensures dequeued ==> id !in QueueOf(s', sid)
  {
    forall k | k in s.queuesByService
      ensures Shrunk(s.queuesByService[k], s'.queuesByService[k], id)
    {
      var q := s.queuesByService[k];
      if dequeued && k == sid && id in q {
        Lists.RemoveFirstKeepsIncreasing(q, id);
        forall x
          ensures x in Lists.RemoveFirst(q, id) <==> x in q && x != id
        {
          Lists.RemoveFirstMembers(q, id, x);
        }
      }
    }
    if dequeued && id in QueueOf(s, sid) {
      Lists.RemoveFirstMembers(s.queuesByService[sid], id, id);
    }
  }

  /** The queue parts of the invariant after a ticket leaves WAITING status and,
      optionally, its id leaves its service's queue. */
  lemma LeftWaitingQueuesValid(s: QueueSystem, id: nat, t: Tickets.Ticket, s': QueueSystem, dequeued: bool)
    requires Valid(s) && id in s.tickets
    requires Tickets.SameIdentity(s.tickets[id], t) && t.status != Tickets.Waiting && t.priority == 0
    requires s'.services == s.services && s'.ticketCounter == s.ticketCounter
    requires s'.customers.Keys == s.customers.Keys
    requires s'.tickets == s.tickets[id := t]
    requires !dequeued ==> s'.queuesByService == s.queuesByService
    requires dequeued ==> s'.queuesByService == Dequeue(s, t.serviceId, id).queuesByService
    requires t.status == Tickets.Done || (t.status == Tickets.Canceled && dequeued)
    ensures QueuesOrdered(s') && WaitingQueued(s') && TicketsIssued(s') && QueuedWaitingOrDone(s')
  {
    DequeueShrinks(s, t.serviceId, id, dequeued, s');
    LeftWaitingOrdered(s, id, t, s');
    LeftWaitingStillQueued(s, id, t, s');
    LeftWaitingStatuses(s, id, t, s', dequeued);
  }

  lemma LeftWaitingOrdered(s: QueueSystem, id: nat, t: Tickets.Ticket, s': QueueSystem)
    requires Valid(s) && id in s.tickets && Tickets.SameIdentity(s.tickets[id], t)
    requires s'.tickets == s.tickets[id := t]
    requires s'.queuesByService.Keys == s.queuesByService.Keys
    requires forall k :: k in s.queuesByService ==> Shrunk(s.queuesByService[k], s'.queuesByService[k], id)
    ensures QueuesOrdered(s')
  {
    forall sid, i | sid in s'.queuesByService && 0 <= i < |s'.queuesByService[sid]|
      ensures s'.queuesByService[sid][i] in s'.tickets
      ensures s'.tickets[s'.queuesByService[sid][i]].serviceId == sid
    {
      assert s'.queuesByService[sid][i] in s.queuesByService[sid];
    }
  }

  lemma LeftWaitingStillQueued(s: QueueSystem, id: nat, t: Tickets.Ticket, s': QueueSystem)
    requires Valid(s) && id in s.tickets
    requires Tickets.SameIdentity(s.tickets[id], t) && t.status != Tickets.Waiting && t.priority == 0
    requires s'.services == s.services && s'.ticketCounter == s.ticketCounter
    requires s'.customers.Keys == s.customers.Keys
    requires s'.tickets == s.tickets[id := t]
    requires s'.queuesByService.Keys == s.queuesByService.Keys
    requires forall k :: k in s.queuesByService ==> Shrunk(s.queuesByService[k], s'.queuesByService[k], id)
    ensures WaitingQueued(s') && TicketsIssued(s')
  {
    forall tid | tid in s'.tickets && s'.tickets[tid].status == Tickets.Waiting
      ensures tid in QueueOf(s', s'.tickets[tid].serviceId)
    {
      assert tid != id;
      assert tid in QueueOf(s, s.tickets[tid].serviceId);
    }
  }

  lemma LeftWaitingStatuses(s: QueueSystem, id: nat, t: Tickets.Ticket, s': QueueSystem, dequeued: bool)
    requires Valid(s) && id in s.tickets && Tickets.SameIdentity(s.tickets[id], t)
    requires t.status == Tickets.Done || (t.status == Tickets.Canceled && dequeued)
    requires s'.tickets == s.tickets[id := t]
    requires s'.queuesByService.Keys == s.queuesByService.Keys
    requires forall k :: k in s.queuesByService ==> Shrunk(s.queuesByService[k], s'.queuesByService[k], id)
    requires dequeued ==> id !in QueueOf(s', t.serviceId)
    ensures QueuedWaitingOrDone(s')
  {
    forall sid, i | sid in s'.queuesByService && 0 <= i < |s'.queuesByService[sid]|
      ensures s'.queuesByService[sid][i] in s.queuesByService[sid]
      ensures t.status == Tickets.Canceled ==> s'.queuesByService[sid][i] != id
    {
      var x := s'.queuesByService[sid][i];
      assert x in s.queuesByService[sid];
      if sid != t.serviceId {
        var j :| 0 <= j < |s.queuesByService[sid]| && s.queuesByService[sid][j] == x;
        assert s.tickets[s.queuesByService[sid][j]].serviceId == sid;
      }
    }
  }

  /** The state a successful `finish_ticket` leaves, field by field. */
  lemma FinishTicketShape(s: QueueSystem, ticketId: nat, now: string)
    requires ticketId in s.tickets && Tickets.MarkDone(s.tickets[ticketId], now).Ok?
    requires s.tickets[ticketId].customerId in s.customers
    ensures var t := Tickets.MarkDone(s.tickets[ticketId], now).value;
      var s' := FinishTicket(s, ticketId, now).sys;
      && s'.tickets == s.tickets[ticketId := t]
      && s'.customers == Release(s, t.customerId, ticketId).customers
      && s'.queuesByService == s.queuesByService
      && s'.services == s.services && s'.ticketCounter == s.ticketCounter
  {
  }

  /** The state a successful `cancel_ticket` leaves, field by field. */
  lemma CancelTicketShape(s: QueueSystem, ticketId: nat, now: string)
    requires ticketId in s.tickets && Tickets.Cancel(s.tickets[ticketId], now).Ok?
    requires s.tickets[ticketId].customerId in s.customers
    ensures var t := Tickets.Cancel(s.tickets[ticketId], now).value;
      var s' := CancelTicket(s, ticketId, now).sys;
      && s'.tickets == s.tickets[ticketId := t]
      && s'.customers == Release(s, t.customerId, ticketId).customers
      && s'.queuesByService == Dequeue(s, t.serviceId, ticketId).queuesByService
      && s'.services == s.services && s'.ticketCounter == s.ticketCounter
  {
    var t := Tickets.Cancel(s.tickets[ticketId], now).value;
    var s1 := s.(tickets := s.tickets[ticketId := t]);
    assert Dequeue(s1, t.serviceId, ticketId).queuesByService == Dequeue(s, t.serviceId, ticketId).queuesByService;
  }

  /** The whole invariant after a ticket leaves WAITING status: its customer is
      released and, when cancelled, its id leaves its service's queue. */
  lemma LeftWaitingKeepsValid(s: QueueSystem, id: nat, t: Tickets.Ticket, s': QueueSystem, dequeued: bool)
    requires Valid(s) && id in s.tickets
    requires Tickets.SameIdentity(s.tickets[id], t) && t.status != Tickets.Waiting && t.priority == 0
    requires s'.services == s.services && s'.ticketCounter == s.ticketCounter
    requires s'.tickets == s.tickets[id := t]
    requires s'.customers == Release(s, t.customerId, id).customers
    requires !dequeued ==> s'.queuesByService == s.queuesByService
    requires dequeued ==> s'.queuesByService == Dequeue(s, t.serviceId, id).queuesByService
    requires t.status == Tickets.Done || (t.status == Tickets.Canceled && dequeued)
    ensures Valid(s')
  {
    LeftWaitingQueuesValid(s, id, t, s', dequeued);
    LeftWaitingRefsValid(s, id, t, s');
  }

  lemma FinishTicketKeepsValid(s: QueueSystem, ticketId: nat, now: string)
    requires Valid(s)
    ensures Valid(FinishTicket(s, ticketId, now).sys)
  {
    if ticketId in s.tickets && Tickets.MarkDone(s.tickets[ticketId], now).Ok? {
      var t := Tickets.MarkDone(s.tickets[ticketId], now).value;
      FinishTicketShape(s, ticketId, now);
      LeftWaitingKeepsValid(s, ticketId, t, FinishTicket(s, ticketId, now).sys, false);
    }
  }

  lemma CancelTicketKeepsValid(s: QueueSystem, ticketId: nat, now: string)
    requires Valid(s)
    ensures Valid(CancelTicket(s, ticketId, now).sys)
  {
    if ticketId in s.tickets && Tickets.Cancel(s.tickets[ticketId], now).Ok? {
      var t := Tickets.Cancel(s.tickets[ticketId], now).value;
      CancelTicketShape(s, ticketId, now);
      LeftWaitingKeepsValid(s, ticketId, t, CancelTicket(s, ticketId, now).sys, true);
    }
  }
}

=== FILE: lists.dfy ===
/** Python's `list.remove(x)`, which deletes the first occurrence of `x`, and the
    ordering facts the dispatch queues rely on. (`pop(0)` is the slice `q[1..]`,
    written inline where the queue system calls it.) */
module Lists {

  /** Position of the first occurrence of `x` in `q`. */
  function IndexOf(q: seq<nat>, x: nat): (i: nat)
    requires x in q
    ensures i < |q| && q[i] == x
    ensures x !in q[..i]
  {
    if q[0] == x then 0 else 1 + IndexOf(q[1..], x)
  }

  /** Python `q.remove(x)` on a list that contains `x`: the first occurrence goes,
      every other entry keeps its relative order. */
  function RemoveFirst(q: seq<nat>, x: nat): (r: seq<nat>)
    requires x in q
    ensures |r| == |q| - 1
    ensures r[..IndexOf(q, x)] == q[..IndexOf(q, x)]
    ensures r[IndexOf(q, x)..] == q[IndexOf(q, x) + 1..]
    ensures multiset(r) + multiset{x} == multiset(q)
  {
    var i := IndexOf(q, x);
    assert q == q[..i] + [x] + q[i + 1..];
    q[..i] + q[i + 1..]
  }

  /** Strictly increasing: the order in which a counter hands out ids. */
  predicate Increasing(q: seq<nat>) {
    forall i, j :: 0 <= i < j < |q| ==> q[i] < q[j]
  }

  lemma RemoveFirstKeepsIncreasing(q: seq<nat>, x: nat)
    requires x in q && Increasing(q)
    ensures Increasing(RemoveFirst(q, x))
  {
    var i := IndexOf(q, x);
    var r := RemoveFirst(q, x);
    forall a, b | 0 <= a < b < |r|
      ensures r[a] < r[b]
    {
      assert r[a] == q[if a < i then a else a + 1];
      assert r[b] == q[if b < i then b else b + 1];
    }
  }

  /** In a queue of distinct ids, removing `x` removes exactly `x`. */
  lemma RemoveFirstMembers(q: seq<nat>, x: nat, y: nat)
    requires x in q && Increasing(q)
    ensures y in RemoveFirst(q, x) <==> y in q && y != x
  {
    var i := IndexOf(q, x);
    var r := RemoveFirst(q, x);
    if y == x {
      assert r == q[..i] + q[i + 1..];
      forall k | i + 1 <= k < |q|
        ensures q[k] != x
      {
        assert q[i] < q[k];
      }
      assert x !in q[i + 1..];
    } else {
      var mr: multiset<nat>, mq: multiset<nat> := multiset(r), multiset(q);
      assert mr + multiset{x} == mq;
      assert mr[y] == mq[y];
    }
  }
}

=== FILE: mixins.dfy ===
/** The audit-log capability every ticket carries: an append-only list of
    timestamped lines. The wall clock is not modelled; each call receives the
    already formatted timestamp `ts` as an opaque string. */
module Mixins {

  type AuditLog = seq<string>

  /** A fresh log holds no entries. */
  function NewLog(): (log: AuditLog)
    ensures |log| == 0
  {
    []
  }

  /** One log line: the bracketed timestamp, a space, then the message. */
  function Entry(ts: string, message: string): (e: string)
    ensures |e| == |ts| + |message| + 3
    ensures e[0] == '[' && e[1..|ts| + 1] == ts
    ensures e[|ts| + 1] == ']' && e[|ts| + 2] == ' '
    ensures e[|ts| + 3..] == message
  {
    "[" + ts + "] " + message
  }

  /** Recovers the message of an entry whose timestamp holds no `]`, as every
      `%Y-%m-%d %H:%M:%S` stamp does: everything after the first `] `. */
  function MessageOf(e: string): string
  {
    if |e| < 2 then ""
    else if e[0] == ']' && e[1] == ' ' then e[2..]
    else MessageOf(e[1..])
  }

  lemma {:induction false} MessageOfSkips(ts: string, rest: string)
    requires ']' !in ts && |rest| >= 2 && rest[0] == ']' && rest[1] == ' '
    ensures MessageOf(ts + rest) == rest[2..]
    decreases |ts|
  {
    if |ts| == 0 {
      assert ts + rest == rest;
    } else {
      assert (ts + rest)[1..] == ts[1..] + rest;
      assert (ts + rest)[0] == ts[0] && ts[0] in ts;
      MessageOfSkips(ts[1..], rest);
    }
  }

  /** The message written by `Log` can be read back from its entry. */
  lemma EntryRoundTrip(ts: string, message: string)
    requires ']' !in ts
    ensures MessageOf(Entry(ts, message)[1..]) == message
  {
    assert Entry(ts, message)[1..] == ts + ("] " + message);
    MessageOfSkips(ts, "] " + message);
    assert ("] " + message)[2..] == message;
  }

  /** `AuditMixin.log`: appends exactly one entry and leaves every earlier entry as it was. */
  function Log(log: AuditLog, ts: string, message: string): (log': AuditLog)
    ensures |log'| == |log| + 1
    ensures log'[..|log|] == log
    ensures log'[|log|] == Entry(ts, message)
    ensures EndsWith(log'[|log|], message)
  {
    log + [Entry(ts, message)]
  }

  predicate EndsWith(s: string, suffix: string) {
    |suffix| <= |s| && s[|s| - |suffix|..] == suffix
  }

  /** `AuditMixin.get_audit_log`: a copy equal to the current log. Values are
      immutable here, so a change to the copy can never reach the log. */
  function GetAuditLog(log: AuditLog): (copy: seq<string>)
    ensures |copy| == |log|
    ensures forall i :: 0 <= i < |log| ==> copy[i] == log[i]
  {
    log[..]
  }

  /** Every earlier entry survives any number of further `Log` calls. */
  lemma {:induction false} LogIsAppendOnly(log: AuditLog, stamps: seq<string>, messages: seq<string>)
    requires |stamps| == |messages|
    ensures |LogAll(log, stamps, messages)| == |log| + |messages|
    ensures LogAll(log, stamps, messages)[..|log|] == log
    decreases |messages|
  {
    if |messages| > 0 {
      var log1 := Log(log, stamps[0], messages[0]);
      LogIsAppendOnly(log1, stamps[1..], messages[1..]);
      var all := LogAll(log1, stamps[1..], messages[1..]);
      assert all[..|log|] == all[..|log1|][..|log|];
    }
  }

  /** The log after a run of `Log` calls, one per (stamp, message) pair. */
  function LogAll(log: AuditLog, stamps: seq<string>, messages: seq<string>): AuditLog
    requires |stamps| == |messages|
    decreases |messages|
  {
    if |messages| == 0 then log else LogAll(Log(log, stamps[0], messages[0]), stamps[1..], messages[1..])
  }

  /** The notification capability: `notify` prints a line and has no other effect.
      The printed lines are kept as an outbox so that contracts can count them. */
  function Notify(outbox: seq<string>, message: string): (outbox': seq<string>)
    ensures |outbox'| == |outbox| + 1 && outbox'[..|outbox|] == outbox
    ensures outbox'[|outbox|] == "NOTIFY: " + message
  {
    outbox + ["NOTIFY: " + message]
  }
}

=== FILE: persons.dfy ===
/** `Person` and its subclass `Customer`. The core only ever builds customers, so
    one record carries the person fields together with the customer's priority
    flag and its weak reference to an active ticket (a ticket id, not the ticket). */
module Persons {
  import opened Wrappers

  datatype Customer = Customer(
    personId: string,
    fullName: string,
    phone: string,
    priority: int,
    activeTicketId: Option<nat>)
  {
    /** `Customer.is_waiting`: holds an active-ticket reference. */
    predicate IsWaiting() {
      activeTicketId.Some?
    }
  }

  /** `Customer.__init__`: no active ticket yet; the priority is stored as given, unchecked. */
  function NewCustomer(personId: string, fullName: string, phone: string, priority: int := 0): (c: Customer)
    ensures c.personId == personId && c.fullName == fullName && c.phone == phone
    ensures c.priority == priority
    ensures c.activeTicketId == None && !c.IsWaiting()
  {
    Customer(personId, fullName, phone, priority, None)
  }

  /** `Customer.set_active_ticket`: replaces the reference and nothing else. */
  function SetActiveTicket(c: Customer, ticketId: Option<nat>): (c': Customer)
    ensures c'.activeTicketId == ticketId
    ensures c'.IsWaiting() <==> ticketId.Some?
    ensures c'.personId == c.personId && c'.fullName == c.fullName
    ensures c'.phone == c.phone && c'.priority == c.priority
  {
    c.(activeTicketId := ticketId)
  }

  /** `Person.update_phone`: replaces the phone and nothing else. */
  function UpdatePhone(c: Customer, newPhone: string): (c': Customer)
    ensures c'.phone == newPhone
    ensures c'.personId == c.personId && c'.fullName == c.fullName
    ensures c'.priority == c.priority && c'.activeTicketId == c.activeTicketId
  {
    c.(phone := newPhone)
  }

  /** `Person.short_display`: the full name, then the id in parentheses. */
  function ShortDisplay(c: Customer): (s: string)
    ensures |s| == |c.fullName| + |c.personId| + 3
    ensures s[..|c.fullName|] == c.fullName
    ensures s[|c.fullName|..|c.fullName| + 2] == " ("
    ensures s[|c.fullName| + 2..|s| - 1] == c.personId && s[|s| - 1] == ')'
  {
    c.fullName + " (" + c.personId + ")"
  }

  /** The display line depends only on the name and the id: a phone change or an
      active-ticket change never alters it. */
  lemma ShortDisplayIgnoresMutableFields(c: Customer, newPhone: string, ticketId: Option<nat>)
    ensures ShortDisplay(UpdatePhone(c, newPhone)) == ShortDisplay(c)
    ensures ShortDisplay(SetActiveTicket(c, ticketId)) == ShortDisplay(c)
  {
  }

  /** Clearing a reference that was set, then setting it again, restores the customer. */
  lemma SetActiveTicketRoundTrip(c: Customer)
    ensures SetActiveTicket(SetActiveTicket(c, None), c.activeTicketId) == c
    ensures !SetActiveTicket(c, None).IsWaiting()
  {
  }
}

=== FILE: properties.dfy ===
/** Consequences of the invariant that a caller of `QueueSystem` can rely on,
    and the behaviours of the code that differ from a "queue of waiting tickets". */
module Properties {
  import opened Wrappers
  import Lists
  import Persons
  import Services
  import Tickets
  import opened Dispatch
  import opened Invariants

  /** The active reference is the sole per-customer guard, and it is exact: a
      customer has at most one WAITING ticket. */
  lemma OneWaitingTicketPerCustomer(s: QueueSystem, a: nat, b: nat)
    requires Valid(s)
    requires a in s.tickets && b in s.tickets
    requires s.tickets[a].status == Tickets.Waiting && s.tickets[b].status == Tickets.Waiting
    requires s.tickets[a].customerId == s.tickets[b].customerId
    ensures a == b
  {
    assert s.customers[s.tickets[a].customerId].activeTicketId == Some(a);
  }

  /** A customer is waiting exactly when one of its tickets is WAITING. */
  lemma WaitingIffWaitingTicket(s: QueueSystem, customerId: string)
    requires Valid(s) && customerId in s.customers
    ensures s.customers[customerId].IsWaiting() <==>
      exists id :: id in s.tickets && s.tickets[id].status == Tickets.Waiting && s.tickets[id].customerId == customerId
  {
    if s.customers[customerId].IsWaiting() {
      var id := s.customers[customerId].activeTicketId.value;
      assert id in s.tickets && s.tickets[id].status == Tickets.Waiting;
    }
  }

  /** While a customer has a WAITING ticket, a second `create_ticket` is refused and changes nothing. */
  lemma SecondTicketBlocked(s: QueueSystem, id: nat, serviceId: string, now: string)
    requires Valid(s) && id in s.tickets && s.tickets[id].status == Tickets.Waiting
    ensures var r := CreateTicket(s, s.tickets[id].customerId, serviceId, now);
      r.result.Err? && r.sys == s
  {
  }

  /** In a consistent system `create_ticket` succeeds exactly when the three checks pass. */
  lemma CreateTicketOnlyChecksFail(s: QueueSystem, customerId: string, serviceId: string, now: string)
    requires Valid(s)
    ensures CreateTicket(s, customerId, serviceId, now).result.Ok? <==>
      customerId in s.customers && serviceId in s.services && !s.customers[customerId].IsWaiting()
    ensures CreateTicket(s, customerId, serviceId, now).result.Ok? ==>
      s.ticketCounter + 1 !in s.tickets
  {
  }

  /** `get_customer` finds exactly the record `add_customer` registered, and every
      other lookup answers as before. */
  lemma AddedCustomerIsFound(s: QueueSystem, c: Persons.Customer)
    requires c.personId !in s.customers
    ensures GetCustomer(AddCustomer(s, c).sys, c.personId) == Ok(c)
    ensures forall id :: id != c.personId ==>
      GetCustomer(AddCustomer(s, c).sys, id) == GetCustomer(s, id)
  {
  }

  /** In a consistent system `peek_next_ticket` never raises, and it previews what
      `call_next_ticket` does: no head means nothing is called, a WAITING head is the
      ticket that gets called, any other head is the one that is refused. */
  lemma PeekPreviewsCall(s: QueueSystem, serviceId: string, now: string)
    requires Valid(s)
    ensures PeekNext(s, serviceId).Ok?
    ensures PeekNext(s, serviceId) == Ok(None) <==> CallNext(s, serviceId, now).result == Ok(None)
    ensures var p := PeekNext(s, serviceId);
      p.Ok? && p.value.Some? && p.value.value.status == Tickets.Waiting ==>
        var r := CallNext(s, serviceId, now).result;
        && r.Ok? && r.value.Some?
        && Tickets.SameIdentity(p.value.value, r.value.value)
        && r.value.value.status == Tickets.Called
    ensures var p := PeekNext(s, serviceId);
      p.Ok? && p.value.Some? && p.value.value.status != Tickets.Waiting ==>
        CallNext(s, serviceId, now).result == Err(Tickets.NotCallable)
  {
    var q := QueueOf(s, serviceId);
    if |q| > 0 {
      assert serviceId in s.queuesByService;
      assert q[0] in s.tickets;
      if s.tickets[q[0]].status == Tickets.Waiting {
        CallNextShape(s, serviceId, now);
      }
    }
  }

  /** The customer is released when its ticket is called, not when it is finished:
      straight after a successful `call_next_ticket` the same customer can open a new ticket. */
  lemma ReleasedOnCall(s: QueueSystem, serviceId: string, now: string, other: string)
    requires Valid(s)
    requires CallNext(s, serviceId, now).result.Ok? && CallNext(s, serviceId, now).result.value.Some?
    requires other in s.services
    ensures var r := CallNext(s, serviceId, now);
      var cid := r.result.value.value.customerId;
      && cid in r.sys.customers && !r.sys.customers[cid].IsWaiting()
      && CreateTicket(r.sys, cid, other, now).result.Ok?
  {
    CallNextShape(s, serviceId, now);
    CallNextKeepsValid(s, serviceId, now);
  }

  /** In a consistent system `call_next_ticket` fails only on a queued ticket that
      was finished while it waited, and then the head is popped all the same. */
  lemma CallNextFailsOnlyOnFinished(s: QueueSystem, serviceId: string, now: string)
    requires Valid(s)
    ensures var r := CallNext(s, serviceId, now);
      r.result.Err? ==>
        && |QueueOf(s, serviceId)| > 0
        && s.tickets[QueueOf(s, serviceId)[0]].status == Tickets.Done
        && r.result.error == Tickets.NotCallable
        && r.sys.queuesByService[serviceId] == QueueOf(s, serviceId)[1..]
        && r.sys.tickets == s.tickets && r.sys.customers == s.customers
  {
    var q := QueueOf(s, serviceId);
    if |q| > 0 && s.tickets[q[0]].status == Tickets.Waiting {
      CallNextShape(s, serviceId, now);
    }
  }

  /** `finish_ticket` on a WAITING ticket leaves its id in the queue with status DONE:
      queues are not "WAITING tickets only". The queue still counts it. */
  lemma FinishedTicketStaysQueued(s: QueueSystem, id: nat, now: string)
    requires Valid(s) && id in s.tickets && s.tickets[id].status == Tickets.Waiting
    ensures var r := FinishTicket(s, id, now);
      var sid := s.tickets[id].serviceId;
      && r.result.Ok?
      && r.sys.tickets[id].status == Tickets.Done
      && id in QueueOf(r.sys, sid)
      && QueueLength(r.sys, sid) == QueueLength(s, sid)
  {
  }

  /** Cancelling takes a WAITING ticket out of its queue, shortening it by one;
      cancelling a CALLED ticket touches no queue. */
  lemma CancelShortensQueue(s: QueueSystem, id: nat, now: string)
    requires Valid(s) && id in s.tickets && !Tickets.IsTerminal(s.tickets[id].status)
    ensures var r := CancelTicket(s, id, now);
      var sid := s.tickets[id].serviceId;
      && r.result.Ok?
      && id !in QueueOf(r.sys, sid)
      && (s.tickets[id].status == Tickets.Waiting ==> QueueLength(r.sys, sid) == QueueLength(s, sid) - 1)
      && (s.tickets[id].status == Tickets.Called ==> r.sys.queuesByService == s.queuesByService)
  {
    var sid := s.tickets[id].serviceId;
    var q := QueueOf(s, sid);
    if id in q {
      Lists.RemoveFirstMembers(q, id, id);
    }
  }

  /** Appending one id to one queue adds one average to that service's estimate
      and leaves the others alone. */
  lemma AppendRaisesEstimate(s: QueueSystem, s': QueueSystem, serviceId: string, id: nat, other: string)
    requires serviceId in s.services && serviceId in s.queuesByService && other in s.services
    requires s'.services == s.services
    requires s'.queuesByService == s.queuesByService[serviceId := s.queuesByService[serviceId] + [id]]
    ensures QueueLength(s', serviceId) == QueueLength(s, serviceId) + 1
    ensures EstimateWaitMinutes(s', serviceId).value
      == EstimateWaitMinutes(s, serviceId).value + s.services[serviceId].avgMinutes
    ensures other != serviceId ==> EstimateWaitMinutes(s', other) == EstimateWaitMinutes(s, other)
  {
    var n := QueueLength(s, serviceId);
    var m := s.services[serviceId].avgMinutes;
    assert (n + 1) * m == n * m + m;
  }

  /** `create_ticket` adds one ticket's worth of minutes to the estimate of its
      service and leaves every other service's estimate alone. */
  lemma CreateTicketRaisesEstimate(s: QueueSystem, customerId: string, serviceId: string, now: string, other: string)
    requires CreateTicket(s, customerId, serviceId, now).result.Ok?
    requires other in s.services
    ensures var s' := CreateTicket(s, customerId, serviceId, now).sys;
      && QueueLength(s', serviceId) == QueueLength(s, serviceId) + 1
      && EstimateWaitMinutes(s', serviceId).value
           == EstimateWaitMinutes(s, serviceId).value + s.services[serviceId].avgMinutes
      && (other != serviceId ==> EstimateWaitMinutes(s', other) == EstimateWaitMinutes(s, other))
  {
    CreateTicketShape(s, customerId, serviceId, now);
    AppendRaisesEstimate(s, CreateTicket(s, customerId, serviceId, now).sys, serviceId, s.ticketCounter + 1, other);
  }

  /** `call_next_ticket` on a non-empty queue shortens it by one, whatever the outcome. */
  lemma CallNextShortensQueue(s: QueueSystem, serviceId: string, now: string)
    requires |QueueOf(s, serviceId)| > 0
    ensures QueueLength(CallNext(s, serviceId, now).sys, serviceId) == QueueLength(s, serviceId) - 1
  {
  }

  /** The registry after one service and two fresh customers are added. */
  function Seeded(): QueueSystem {
    var s0 := AddService(Init(), Services.Service("S1", "Customer Support", 7)).sys;
    var s1 := AddCustomer(s0, Persons.NewCustomer("C1", "Alice", "050")).sys;
    AddCustomer(s1, Persons.NewCustomer("C2", "Bob", "051", 1)).sys
  }

  lemma SeededIsValid()
    ensures Valid(Seeded())
    ensures Seeded().customers.Keys == {"C1", "C2"} && Seeded().services.Keys == {"S1"}
    ensures QueueOf(Seeded(), "S1") == [] && Seeded().ticketCounter == InitialCounter
    ensures !Seeded().customers["C1"].IsWaiting() && !Seeded().customers["C2"].IsWaiting()
  {
    var s0 := AddService(Init(), Services.Service("S1", "Customer Support", 7)).sys;
    InitValid();
    AddServiceKeepsValid(Init(), Services.Service("S1", "Customer Support", 7));
    var s1 := AddCustomer(s0, Persons.NewCustomer("C1", "Alice", "050")).sys;
    AddCustomerKeepsValid(s0, Persons.NewCustomer("C1", "Alice", "050"));
    AddCustomerKeepsValid(s1, Persons.NewCustomer("C2", "Bob", "051", 1));
  }

  /** Two idle customers who queue one after the other for a service with an
      empty queue get consecutive ids in arrival order, whatever their priority
      flags; the estimate is then two averages, and the first cannot queue again. */
  lemma TwoCustomersQueueInArrivalOrder(s: QueueSystem, c1: string, c2: string, sid: string, now: string)
    requires c1 != c2 && sid in s.services && sid in s.queuesByService && s.queuesByService[sid] == []
    requires c1 in s.customers && !s.customers[c1].IsWaiting()
    requires c2 in s.customers && !s.customers[c2].IsWaiting()
    ensures
      var s3 := CreateTicket(s, c1, sid, now).sys;
      var s4 := CreateTicket(s3, c2, sid, now).sys;
      && s4.queuesByService[sid] == [s.ticketCounter + 1, s.ticketCounter + 2]
      && EstimateWaitMinutes(s4, sid) == Ok(2 * s.services[sid].avgMinutes)
      && CreateTicket(s4, c1, sid, now).result == Err(AlreadyWaiting)
  {
    var s3 := CreateTicket(s, c1, sid, now).sys;
    CreateTicketShape(s, c1, sid, now);
    assert s3.queuesByService[sid] == [s.ticketCounter + 1];
    CreateTicketShape(s3, c2, sid, now);
    var s4 := CreateTicket(s3, c2, sid, now).sys;
    assert s4.queuesByService[sid] == [s.ticketCounter + 1] + [s.ticketCounter + 2];
  }

  /** A ticket finished while waiting is still at the head of the queue: peeking
      returns a DONE ticket, and calling it raises yet empties the queue. */
  lemma FinishedHeadScenario(s: QueueSystem, c: string, sid: string, now: string)
    requires sid in s.services && sid in s.queuesByService && s.queuesByService[sid] == []
    requires c in s.customers && !s.customers[c].IsWaiting()
    ensures
      var id := s.ticketCounter + 1;
      var s3 := CreateTicket(s, c, sid, now).sys;
      var s4 := FinishTicket(s3, id, now).sys;
      var r := CallNext(s4, sid, now);
      && PeekNext(s4, sid).Ok? && PeekNext(s4, sid).value.Some?
      && PeekNext(s4, sid).value.value.status == Tickets.Done
      && r.result == Err(Tickets.NotCallable)
      && QueueLength(r.sys, sid) == 0
  {
    var id := s.ticketCounter + 1;
    var s3 := CreateTicket(s, c, sid, now).sys;
    CreateTicketShape(s, c, sid, now);
    assert s3.queuesByService[sid] == [id];
    assert s3.tickets[id].status == Tickets.Waiting && s3.tickets[id].customerId in s3.customers;
    var s4 := FinishTicket(s3, id, now).sys;
    assert s4.queuesByService[sid] == [id] && s4.tickets[id].status == Tickets.Done;
  }
}

=== FILE: render.dfy ===
/** Python's `str()` on integers, and the `"T<counter>"` ticket names built from it. */
module Render {

  predicate IsDigit(c: char) {
    '0' <= c <= '9'
  }

  predicate AllDigits(s: string) {
    forall i :: 0 <= i < |s| ==> IsDigit(s[i])
  }

  function DigitChar(d: nat): (c: char)
    requires d < 10
    ensures IsDigit(c)
  {
    "0123456789"[d]
  }

  function DigitValue(c: char): (d: nat)
    requires IsDigit(c)
    ensures d < 10
  {
    (c as int - '0' as int) as nat
  }

  lemma DigitRoundTrip(d: nat)
    requires d < 10
    ensures DigitValue(DigitChar(d)) == d
  {
  }

  /** Decimal rendering of a natural number: no sign, no leading zero. */
  function NatToString(n: nat): (s: string)
    ensures |s| >= 1 && AllDigits(s)
    ensures s[0] == '0' ==> n == 0
    decreases n
  {
    if n < 10 then [DigitChar(n)] else NatToString(n / 10) + [DigitChar(n % 10)]
  }

  /** Reads back a string of decimal digits. */
  function ParseNat(s: string): (n: nat)
    requires AllDigits(s)
    decreases |s|
  {
    if |s| == 0 then 0 else ParseNat(s[..|s| - 1]) * 10 + DigitValue(s[|s| - 1])
  }

  lemma {:induction false} ParseNatToString(n: nat)
    ensures ParseNat(NatToString(n)) == n
    decreases n
  {
    var s := NatToString(n);
    if n < 10 {
      assert s[..0] == [];
      DigitRoundTrip(n);
    } else {
      var p := NatToString(n / 10);
      assert s == p + [DigitChar(n % 10)];
      assert s[..|s| - 1] == p;
      ParseNatToString(n / 10);
      DigitRoundTrip(n % 10);
    }
  }

  lemma NatToStringInjective(a: nat, b: nat)
    ensures NatToString(a) == NatToString(b) <==> a == b
  {
    if NatToString(a) == NatToString(b) {
      ParseNatToString(a);
      ParseNatToString(b);
    }
  }

  /** Python `str(i)` for any integer: a `-` sign before the digits of a negative number. */
  function IntToString(i: int): (s: string)
    ensures i >= 0 ==> AllDigits(s) && ParseNat(s) == i
    ensures i < 0 <==> (|s| > 0 && s[0] == '-')
    ensures i < 0 ==> AllDigits(s[1..]) && ParseNat(s[1..]) == -i
  {
    if i < 0 then
      ParseNatToString(-i);
      assert ("-" + NatToString(-i))[1..] == NatToString(-i);
      "-" + NatToString(-i)
    else
      ParseNatToString(i);
      NatToString(i)
  }

  lemma NegativeDigits(i: int)
    requires i < 0
    ensures IntToString(i)[1..] == NatToString(-i)
  {
    var d := NatToString(-i);
    assert ("-" + d)[1..] == d;
  }

  lemma IntToStringInjective(a: int, b: int)
    ensures IntToString(a) == IntToString(b) <==> a == b
  {
    if IntToString(a) == IntToString(b) {
      assert (a < 0) == (b < 0);
      if a < 0 {
        NegativeDigits(a);
        NegativeDigits(b);
        NatToStringInjective(-a, -b);
      } else {
        NatToStringInjective(a, b);
      }
    }
  }

  /** The textual ticket id the source builds from its counter. */
  function TicketName(n: nat): (s: string)
    ensures |s| >= 2 && s[0] == 'T' && AllDigits(s[1..])
    ensures ParseNat(s[1..]) == n
  {
    ParseNatToString(n);
    assert ("T" + NatToString(n))[1..] == NatToString(n);
    "T" + NatToString(n)
  }

  lemma TicketNameInjective(a: nat, b: nat)
    ensures TicketName(a) == TicketName(b) <==> a == b
  {
    if TicketName(a) == TicketName(b) {
      assert TicketName(a)[1..] == NatToString(a);
      assert TicketName(b)[1..] == NatToString(b);
      NatToStringInjective(a, b);
    }
  }
}

=== FILE: services.dfy ===
/** `Service`: an id, a display name and the average minutes one ticket takes. */
module Services {
  import opened Wrappers
  import Render

  /** The constructor validates nothing, so `avgMinutes` may be zero or negative. */
  datatype Service = Service(serviceId: string, name: string, avgMinutes: int)

  const NonPositiveMinutes := ValueError("avg_minutes must be positive")

  /** `Service.update_avg_minutes`: rejects a non-positive value, otherwise replaces
      the average; the id and the name never change. */
  function UpdateAvgMinutes(s: Service, minutes: int): (r: Result<Service>)
    ensures r.Err? <==> minutes <= 0
    ensures r.Err? ==> r.error == NonPositiveMinutes
    ensures r.Ok? ==> r.value.avgMinutes == minutes && r.value.avgMinutes > 0
    ensures r.Ok? ==> r.value.serviceId == s.serviceId && r.value.name == s.name
  {
    if minutes <= 0 then Err(NonPositiveMinutes) else Ok(s.(avgMinutes := minutes))
  }

  /** `Service.display`: the name, then the average in minutes. */
  function Display(s: Service): (d: string)
    ensures |d| == |s.name| + |Render.IntToString(s.avgMinutes)| + 11
    ensures d[..|s.name|] == s.name
    ensures d[|s.name|..|s.name| + 6] == " (avg "
    ensures d[|s.name| + 6..|d| - 5] == Render.IntToString(s.avgMinutes)
    ensures d[|d| - 5..] == " min)"
  {
    s.name + " (avg " + Render.IntToString(s.avgMinutes) + " min)"
  }

  /** Updating twice with the same value is the same as updating once. */
  lemma UpdateAvgMinutesIdempotent(s: Service, minutes: int)
    ensures var r := UpdateAvgMinutes(s, minutes);
      r.Ok? ==> UpdateAvgMinutes(r.value, minutes) == r
  {
  }

  /** Two services with the same name show different lines exactly when their averages differ. */
  lemma DisplayDistinguishesAverages(s: Service, t: Service)
    requires s.name == t.name
    ensures Display(s) == Display(t) <==> s.avgMinutes == t.avgMinutes
  {
    if Display(s) == Display(t) {
      var n := |s.name|;
      assert Render.IntToString(s.avgMinutes) == Display(s)[n + 6..|Display(s)| - 5];
      assert Render.IntToString(t.avgMinutes) == Display(t)[n + 6..|Display(t)| - 5];
      Render.IntToStringInjective(s.avgMinutes, t.avgMinutes);
    }
  }

  /** Positivity is kept by the update but is not an invariant of the record:
      the constructor admits any average. */
  lemma PositivityIsNotGlobal()
    ensures Service("S", "Help", 0).avgMinutes <= 0
    ensures UpdateAvgMinutes(Service("S", "Help", 0), 0).Err?
  {
  }
}

=== FILE: tickets.dfy ===
/** `Ticket`: one customer's claim on one service, with its status state machine,
    its audit log (the audit mixin) and the lines its notify capability printed.
    Every transition is a pure function returning the updated ticket or the
    `ValueError` the source raises; a failed transition leaves no trace. */
module Tickets {
  import opened Wrappers
  import Render
  import Mixins

  datatype Status = Waiting | Called | Done | Canceled

  datatype Ticket = Ticket(
    ticketId: nat,
    customerId: string,
    serviceId: string,
    createdAt: string,
    status: Status,
    priority: int,
    auditLog: Mixins.AuditLog,
    notices: seq<string>)

  const BadPriority := ValueError("Priority must be 0 or 1")
  const PriorityLocked := ValueError("Can change priority only while ticket is WAITING")
  const NotCallable := ValueError("Only WAITING tickets can be called")
  const NotFinishable := ValueError("Ticket must be WAITING or CALLED to finish")
  const AlreadyClosed := ValueError("Ticket already DONE/CANCELED")

  predicate IsTerminal(s: Status) {
    s == Done || s == Canceled
  }

  /** The fields no transition may touch. */
  predicate SameIdentity(t: Ticket, t': Ticket) {
    && t'.ticketId == t.ticketId
    && t'.customerId == t.customerId
    && t'.serviceId == t.serviceId
    && t'.createdAt == t.createdAt
  }

  /** `t'` is `t` with exactly one more log entry, which carries `message`. */
  predicate LoggedOnce(t: Ticket, t': Ticket, message: string) {
    && |t'.auditLog| == |t.auditLog| + 1
    && t'.auditLog[..|t.auditLog|] == t.auditLog
    && Mixins.EndsWith(t'.auditLog[|t.auditLog|], message)
  }

  /** `ticket.log(message)` as used by the queue system. */
  function AppendLog(t: Ticket, now: string, message: string): (t': Ticket)
    ensures SameIdentity(t, t') && LoggedOnce(t, t', message)
    ensures t'.status == t.status && t'.priority == t.priority && t'.notices == t.notices
  {
    t.(auditLog := Mixins.Log(t.auditLog, now, message))
  }

  function CreatedMessage(customerId: string, serviceId: string, priority: int): string {
    "Ticket created (customer=" + customerId + ", service=" + serviceId
      + ", priority=" + Render.IntToString(priority) + ")"
  }

  /** `Ticket.__init__`: WAITING, the given priority, and one log entry. */
  function NewTicket(ticketId: nat, customerId: string, serviceId: string, priority: int, now: string): (t: Ticket)
    ensures t.ticketId == ticketId && t.customerId == customerId && t.serviceId == serviceId
    ensures t.createdAt == now
    ensures t.status == Waiting && t.priority == priority
    ensures |t.auditLog| == 1 && Mixins.EndsWith(t.auditLog[0], CreatedMessage(customerId, serviceId, priority))
    ensures t.notices == []
  {
    var t0 := Ticket(ticketId, customerId, serviceId, now, Waiting, priority, Mixins.NewLog(), []);
    AppendLog(t0, now, CreatedMessage(customerId, serviceId, priority))
  }

  /** `Ticket.set_priority`: the range check runs before the status check. */
  function SetPriority(t: Ticket, newPriority: int, now: string): (r: Result<Ticket>)
    ensures r.Ok? <==> (newPriority == 0 || newPriority == 1) && t.status == Waiting
    ensures newPriority != 0 && newPriority != 1 ==> r == Err(BadPriority)
    ensures (newPriority == 0 || newPriority == 1) && t.status != Waiting ==> r == Err(PriorityLocked)
    ensures r.Ok? ==> SameIdentity(t, r.value) && r.value.priority == newPriority
    ensures r.Ok? ==> r.value.status == t.status && r.value.notices == t.notices
    ensures r.Ok? ==> LoggedOnce(t, r.value,
      "Priority changed " + Render.IntToString(t.priority) + " -> " + Render.IntToString(newPriority))
  {
    if newPriority != 0 && newPriority != 1 then Err(BadPriority)
    else if t.status != Waiting then Err(PriorityLocked)
    else
      var message := "Priority changed " + Render.IntToString(t.priority) + " -> " + Render.IntToString(newPriority);
      Ok(AppendLog(t.(priority := newPriority), now, message))
  }

  /** The line `mark_called` hands to `notify`. */
  function CalledNotice(t: Ticket): string {
    "Ticket " + Render.TicketName(t.ticketId) + " has been called!"
  }

  /** `Ticket.mark_called`: WAITING to CALLED, logged, and exactly one notification. */
  function MarkCalled(t: Ticket, now: string): (r: Result<Ticket>)
    ensures r.Ok? <==> t.status == Waiting
    ensures r.Err? ==> r.error == NotCallable
    ensures r.Ok? ==> SameIdentity(t, r.value) && r.value.status == Called && r.value.priority == t.priority
    ensures r.Ok? ==> LoggedOnce(t, r.value, "Status -> CALLED")
    ensures r.Ok? ==> |r.value.notices| == |t.notices| + 1 && r.value.notices[..|t.notices|] == t.notices
    ensures r.Ok? ==> r.value.notices[|t.notices|] == "NOTIFY: Ticket " + Render.TicketName(t.ticketId) + " has been called!"
  {
    if t.status != Waiting then Err(NotCallable)
    else
      var t' := AppendLog(t.(status := Called), now, "Status -> CALLED");
      Ok(t'.(notices := Mixins.Notify(t'.notices, CalledNotice(t'))))
  }

  /** `Ticket.mark_done`: WAITING or CALLED to DONE. */
  function MarkDone(t: Ticket, now: string): (r: Result<Ticket>)
    ensures r.Ok? <==> t.status == Waiting || t.status == Called
    ensures r.Err? ==> r.error == NotFinishable
    ensures r.Ok? ==> SameIdentity(t, r.value) && r.value.status == Done && r.value.priority == t.priority
    ensures r.Ok? ==> LoggedOnce(t, r.value, "Status -> DONE") && r.value.notices == t.notices
  {
    if t.status != Waiting && t.status != Called then Err(NotFinishable)
    else Ok(AppendLog(t.(status := Done), now, "Status -> DONE"))
  }

  /** `Ticket.cancel`: any non-terminal status, CALLED included, to CANCELED. */
  function Cancel(t: Ticket, now: string): (r: Result<Ticket>)
    ensures r.Ok? <==> !IsTerminal(t.status)
    ensures r.Err? ==> r.error == AlreadyClosed
    ensures r.Ok? ==> SameIdentity(t, r.value) && r.value.status == Canceled && r.value.priority == t.priority
    ensures r.Ok? ==> LoggedOnce(t, r.value, "Status -> CANCELED") && r.value.notices == t.notices
  {
    if IsTerminal(t.status) then Err(AlreadyClosed)
    else Ok(AppendLog(t.(status := Canceled), now, "Status -> CANCELED"))
  }

  /** The four operations a caller can apply to a ticket. */
  datatype Op = SetPriorityOp(p: int) | MarkCalledOp | MarkDoneOp | CancelOp

  function Apply(t: Ticket, op: Op, now: string): Result<Ticket> {
    match op
    case SetPriorityOp(p) => SetPriority(t, p, now)
    case MarkCalledOp => MarkCalled(t, now)
    case MarkDoneOp => MarkDone(t, now)
    case CancelOp => Cancel(t, now)
  }

  /** How far along the lifecycle a status is; it never decreases. */
  function Stage(s: Status): nat {
    match s
    case Waiting => 0
    case Called => 1
    case Done => 2
    case Canceled => 2
  }

  /** The transition table, written out on its own: which status an operation
      leads to from a given status, if it is allowed at all. */
  function Table(s: Status, op: Op): Option<Status> {
    match (s, op)
    case (Waiting, SetPriorityOp(p)) => if p == 0 || p == 1 then Some(Waiting) else None
    case (Waiting, MarkCalledOp) => Some(Called)
    case (Waiting, MarkDoneOp) => Some(Done)
    case (Called, MarkDoneOp) => Some(Done)
    case (Waiting, CancelOp) => Some(Canceled)
    case (Called, CancelOp) => Some(Canceled)
    case _ => None
  }

  /** Every operation agrees with the table, succeeds with exactly one log entry,
      keeps the ticket's identity, and never moves the status backwards. */
  lemma ApplyFollowsTable(t: Ticket, op: Op, now: string)
    ensures Apply(t, op, now).Ok? <==> Table(t.status, op).Some?
    ensures Apply(t, op, now).Ok? ==> Apply(t, op, now).value.status == Table(t.status, op).value
    ensures Apply(t, op, now).Ok? ==> SameIdentity(t, Apply(t, op, now).value)
    ensures Apply(t, op, now).Ok? ==> |Apply(t, op, now).value.auditLog| == |t.auditLog| + 1
    ensures Apply(t, op, now).Ok? ==> Stage(t.status) <= Stage(Apply(t, op, now).value.status)
  {
  }

  /** DONE and CANCELED are terminal: every operation fails from them. */
  lemma TerminalIsFinal(t: Ticket, op: Op, now: string)
    requires IsTerminal(t.status)
    ensures Apply(t, op, now).Err?
  {
  }

  /** The log after a run of operations: successful ones extend it, failed ones are skipped. */
  function Run(t: Ticket, ops: seq<Op>, now: string): Ticket
    decreases |ops|
  {
    if |ops| == 0 then t
    else
      var r := Apply(t, ops[0], now);
      Run(if r.Ok? then r.value else t, ops[1..], now)
  }

  function Successes(t: Ticket, ops: seq<Op>, now: string): nat
    decreases |ops|
  {
    if |ops| == 0 then 0
    else
      var r := Apply(t, ops[0], now);
      (if r.Ok? then 1 else 0) + Successes(if r.Ok? then r.value else t, ops[1..], now)
  }

  /** Across any run of operations the log grows by one entry per success, keeps
      its old entries, and the ticket keeps its identity. */
  lemma {:induction false} RunLogsEachSuccess(t: Ticket, ops: seq<Op>, now: string)
    ensures |Run(t, ops, now).auditLog| == |t.auditLog| + Successes(t, ops, now)
    ensures Run(t, ops, now).auditLog[..|t.auditLog|] == t.auditLog
    ensures SameIdentity(t, Run(t, ops, now))
    ensures Stage(t.status) <= Stage(Run(t, ops, now).status)
    decreases |ops|
  {
    if |ops| > 0 {
      var r := Apply(t, ops[0], now);
      var t1 := if r.Ok? then r.value else t;
      ApplyFollowsTable(t, ops[0], now);
      RunLogsEachSuccess(t1, ops[1..], now);
      var log := Run(t1, ops[1..], now).auditLog;
      assert log[..|t.auditLog|] == log[..|t1.auditLog|][..|t.auditLog|];
    }
  }
}

=== FILE: wrappers.dfy ===
/** Failure-carrying results shared by every module of the dispatch core.
    The Python source reports failures by raising `KeyError` or `ValueError`
    with a fixed message; `Error` keeps both the exception class and the message. */
module Wrappers {

  datatype Option<+T> = None | Some(value: T)

  /** The exception classes the core raises, with their messages. */
  datatype Error = KeyError(message: string) | ValueError(message: string)

  /** Either the value an operation returns or the exception it raises. */
  datatype Result<+T> = Ok(value: T) | Err(error: Error)
}
